=== FILE: README.md ===
# RN-Graph layout engine

This project models the graph-layout engine of RN-Graph, a React Native graph
viewer, and proves properties of the model. The engine lives in `util.js`. It
has five parts:

- **Graph index** (`GraphIndex`): builds an id-to-vertex map and a symmetric
  adjacency map from the declared vertex and edge lists (`initVertexEdgeMaps`).
- **Initial placement** (`Placement`):
  - seeds every vertex not yet seen at (1, 1);
  - runs a depth-first traversal that fans the unseen vertices that the
    adjacency entries of a vertex lead to (their `to`) out around it at
    distance 0.5 (`initVertexLocations`, `dfsLocations`).
- **Force simulation** (`Force`, `Simulation`): one tick moves every pair of
  vertices by a piecewise force of their squared distance, scaled by the tick
  length `FPS_INV = 1/480` (`distanceToForce`, `updateLocation`).
- **Viewport fit** (`Viewport`):
  - centres the vertices on their centroid;
  - picks a zoom from the largest offsets and the display size;
  - shifts the vertices so that, with a zero pan, the centroid is drawn in the
    middle of the display (`initPanAndZoom`).
- **Coordinate transforms** (`Transform`): affine maps between virtual and pixel
  coordinates, and their pan-free delta versions (`coordToPixel`,
  `pixelToCoord`, `coordToPixelDelta`, `pixelToCoordDelta`).

Shared records (vertices, edges, points, position sums and translations) live
in `Graph`.

The source mutates vertex records and caller-supplied maps in place. The model
uses pure functions that return the new vertex sequence or the new maps. Each
loop of the source is a recursive function over its index, so a later write to
the same key wins exactly as in the source. Numbers are Dafny reals.
`Math.PI`, `Math.cos` and `Math.sin` are a `Trig` parameter of the placement
and are left uninterpreted.

## Model

| member | source | states |
|---|---|---|
| `Force.DistanceToForce` | util.js:28-34 | Very close pairs (squared distance below 0.04) always repel with force -2, and only then. A pair attracts exactly when it is adjacent and at squared distance 0.36 or more, and the attraction is twice the squared distance. A non-adjacent pair is repelled or left alone. |
| `Force.ZeroForceBand` | util.js:29-32 | The force is zero exactly from squared distance 0.04 up to 0.36 for adjacent pairs, and from 0.04 on without bound for non-adjacent pairs. |
| `Force.ForceMonotone` | util.js:28-34 | The force never decreases as the squared distance grows. |
| `Force.EdgeOnlyAttracts` | util.js:32-33 | Adjacency can only raise the force at a given distance. |
| `Transform.CoordToPixel` | util.js:36-39 | For a nonzero zoom, removing the pan and dividing by the zoom recovers the virtual point. |
| `Transform.PixelToCoord` | util.js:45-48 | The result is the virtual point that the forward map sends to the given pixel. |
| `Transform.CoordToPixelDelta` | util.js:41 | For a nonzero zoom, dividing the pixel delta by the zoom recovers the virtual delta. |
| `Transform.PixelToCoordDelta` | util.js:43 | The zoom times the result is the pixel delta. |
| `Transform.CoordRoundTrip` | util.js:36-48 | Virtual to pixel and back is the identity for every nonzero zoom and pan. |
| `Transform.PixelRoundTrip` | util.js:36-48 | Pixel to virtual and back is the identity for every nonzero zoom and pan. |
| `Transform.DeltaRoundTrip` | util.js:41-43 | Both round trips of the delta conversions are the identity. |
| `Transform.DragFollowsPointer` | util.js:36-43 | Moving a virtual point by the converted pointer motion moves its pixel image by exactly that motion, whatever the pan. |
| `GraphIndex.AddVertices` | util.js:51-53 | Every listed id is in the vertex map, and it holds the last vertex listed with that id. |
| `GraphIndex.AddVerticesKeys` | util.js:51-53 | The vertex map gains exactly the listed ids. Entries for other ids are untouched. |
| `GraphIndex.AddEdge` | util.js:55-58 | One edge creates entries for both endpoints. It sets both directions of its pair to itself and changes no other lookup. |
| `GraphIndex.AddEdges` | util.js:54-59 | Every lookup in the result is the old one or an edge of the list joining that pair. A symmetric index stays symmetric. |
| `GraphIndex.AddEdgesKeys` | util.js:54-59 | The adjacency map gains an entry for exactly the ids that are an endpoint of some edge. |
| `GraphIndex.LastWriteWins` | util.js:54-59 | When no later edge joins the same pair, both directions of the pair hold that edge. |
| `GraphIndex.LastWriteWinsBothWays` | util.js:54-59 | Both directions of every listed edge are present and hold the same edge. |
| `GraphIndex.InitVertexEdgeMaps` | util.js:50-60 | The vertex map gains the listed ids; with unique ids each vertex is stored under its own id. Both directions of every edge are present and equal. The adjacency map gains exactly the edge endpoints. |
| `GraphIndex.IsEdge` | util.js:74 | The adjacency test holds exactly when the index has an entry for the pair in at least one direction. |
| `GraphIndex.IsEdgeIffListed` | util.js:72-75 | On an index built from empty maps, the adjacency test of the simulation holds for a pair exactly when some listed edge joins it, in either direction. |
| `GraphIndex.SortedKeys` | util.js:156 | The result lists exactly the ids of the set, strictly ascending, each once. |
| `GraphIndex.Neighbours` | util.js:155-156 | The enumerated adjacency entries of a vertex are exactly its entries, one per neighbour id. The `i`-th is the one stored under the `i`-th smallest neighbour id, the order in which integer-like keys are listed. |
| `Simulation.Displace` | util.js:78-94 | `Displace`, with its helper `Moves` for the shared position update. Only the two vertices of the pair can change, and the shape of the sequence is kept. A fixed `from` stays put. A fixed `to` stays put when `from` is free. Two free vertices move by opposite amounts. In every case the difference between the pair is scaled by `1 - f/240`: each unit of force moves the pair `2/480` of its separation apart. |
| `Simulation.PairStep` | util.js:63-95 | One pair visit changes only the pair. A zero force changes nothing. A fixed `from` stays put. A fixed `to` stays put when `from` is free. Two free vertices move by opposite amounts. The difference between the pair is scaled by `1 - f/240`, where `f` is the force at the pair's current positions. |
| `Simulation.PairForce` | util.js:68-75 | `PairForce`, with its helper `DistSq` for the squared distance. Vertices at the same point repel with force -2. A pair attracts only when the index has an entry for it in some direction. The force does not depend on which vertex of the pair comes first. |
| `Simulation.DisplaceScalesSeparation` | util.js:78-94 | Displacing a pair by a force `f` scales its squared distance by `(1 - f/240)^2`. |
| `Simulation.RepulsionSeparates` | util.js:68-94 | A repelled pair at distinct points is further apart after the visit. |
| `Simulation.AttractionCloses` | util.js:68-94 | An attracted pair ends the visit closer together exactly when its squared distance is below 240. At 240 or more the displacement overshoots. |
| `Simulation.Row` | util.js:64-95 | The inner loop for row `i` from column `j` keeps the shape of the list. It leaves the columns before `j` untouched, except vertex `i` itself. |
| `Simulation.Rows` | util.js:63-96 | The outer loop from row `i` keeps the shape of the list and leaves the vertices before row `i` untouched. |
| `Simulation.UpdateLocation` | util.js:62-97 | A tick keeps every vertex's identity and flags. A fixed vertex with no fixed vertex before it in the list does not move. With two vertices, the tick is exactly the one visit of the pair. |
| `Simulation.TwoVertexRows` | util.js:63-66 | With two vertices the two loops visit the single pair (0, 1) once. |
| `Simulation.PairStepPins` | util.js:81-90 | A pair visit leaves in place a fixed vertex that has no fixed vertex before it. |
| `Simulation.RowsPin` | util.js:63-96 | The outer loop from any row on leaves in place a fixed vertex that has no fixed vertex before it. |
| `Simulation.SoleFixedVertexPinned` | util.js:81-90 | With exactly one fixed vertex, a tick does not move it. |
| `Simulation.BothFixedLaterStillMoves` | util.js:81-85 | When both vertices of a close pair are fixed, the later one still moves, by twice the displacement with the 1/480 tick length. |
| `Simulation.ThreeVertexOrder` | util.js:63-66 | For three vertices, a tick visits (0,1), (0,2) and (1,2) in that order, each on the positions the previous visit left. |
| `Simulation.PairStepKeepsSums` | util.js:91-94 | A visit of two free vertices keeps the sum of all positions. |
| `Simulation.TickKeepsCentroid` | util.js:62-97 | A tick without fixed vertices keeps the sum of all positions, hence the centroid. |
| `Simulation.PairStepTranslates` | util.js:68-94 | A pair visit commutes with moving every vertex by the same offset. |
| `Simulation.DisplaceTranslates` | util.js:78-94 | Applying a known force commutes with moving every vertex by the same offset. |
| `Simulation.RowTranslates` | util.js:64-95 | The inner loop commutes with moving every vertex by the same offset. |
| `Simulation.TickCommutesWithTranslation` | util.js:62-97 | A tick commutes with moving every vertex by the same offset: forces depend only on position differences. |
| `Placement.Filter` | util.js:158-163 | The kept edges are edges of the input whose targets were unseen, with pairwise different targets, in input order. The new seen set is the old one plus the kept targets, and it holds every target afterwards. |
| `Placement.FilterIsFirstFresh` | util.js:158-163 | The kept edges are exactly, in input order, the first edge for each target that was not seen before the loop. |
| `Placement.FreshEdges` | util.js:155-163 | The same properties for the adjacency entries of the current vertex, in their enumeration order; at most its degree are kept. |
| `Placement.Step` | util.js:165 | `Step`, with its helper `Degree` for the number of adjacency entries. `edges.length` steps make a full turn. With no adjacency entries the source's value is never used, and the model's is 0. |
| `Placement.SiblingAngles` | util.js:165-169 | Children of consecutive ranks are one step apart. The child of the last possible rank is a full turn past `prevTheta`. |
| `Placement.Dfs` | util.js:154-174 | The traversal writes each vertex at most once and only after claiming it. Every written position is the seed, or half a unit at the recorded angle from a placed vertex whose adjacency entry leads to it. It makes no roots and leaves the caller's pending ids pending. Every vertex that an adjacency entry of the current vertex leads to ends up seen; so does the `to` of every entry of each vertex it places, and every id it claims is reached from the current vertex. The target of the `k`-th fresh edge is the child of rank `k`, at angle `theta * (k + 1) + prevTheta` and half a unit from where the current vertex was on entry. |
| `Placement.PlaceChildren` | util.js:166-173 | The placing loop from the `i`-th kept edge on writes every remaining kept target, and only children. The target of the `k`-th edge is the child of rank `k`, at angle `theta * (k + 1) + prevTheta` from the current vertex. |
| `Placement.PlaceChild` | util.js:167-172 | `PlaceChild`, with its helpers `Angle` for `theta * (i + 1) + prevTheta` and `Offset` for the point half a unit away. One turn places the `i`-th kept target and its subtree. The target is the child of rank `i`, at angle `theta * (i + 1) + prevTheta` and half a unit from the current vertex. The parent is unchanged, and only that target leaves the pending set. |
| `Placement.SeedRoot` | util.js:105-109 | A vertex not yet seen is claimed and put at (1, 1) as a root, and stays so. It is explored: every vertex it leads to ends up seen, every other vertex placed in the turn is a child, and every id claimed in the turn is reached from it. Afterwards, for every placed vertex, every vertex its adjacency entries lead to (their `to`) is claimed. |
| `Placement.SeedFrom` | util.js:104-110 | The outer loop from the `k`-th vertex on makes every later vertex seen. For every placed vertex, every vertex its adjacency entries lead to (their `to`) is claimed. An unseen `k`-th vertex is a root at (1, 1). |
| `Placement.Place` | util.js:99-111 | Every vertex is claimed and its position written exactly once. Every position is consistent with its origin, and the first vertex is a root at (1, 1). The roots are the vertices that no earlier vertex of the list reaches by a walk of `e.to` steps, all at (1, 1). With distinct ids, every vertex that an earlier vertex reaches is placed as a child. |
| `Placement.NonTargetIsRoot` | util.js:104-110 | A vertex that no adjacency entry leads to is a root at (1, 1). |
| `Placement.InitVertexLocations` | util.js:99-111 | The vertices keep their identities and flags. Each sits at (1, 1) or half a unit from another vertex whose adjacency entry leads to it. A vertex that no earlier vertex of the list reaches by a walk of `e.to` steps sits at (1, 1), which covers the first vertex and every vertex no entry leads to. A vertex that an earlier vertex reaches sits half a unit from a vertex that leads to it. |
| `Placement.IndexTargets` | util.js:54-59 | An index built from edges between known vertices refers only to known vertices. Every id it leads to is the `to` of a listed edge. |
| `Placement.DfsNewChild` | util.js:158-172 | A traversal started with nothing pending places every unplaced vertex its current vertex leads to, as a child. |
| `Placement.FirstLeadsChild` | util.js:104-110 | Every other vertex that the first vertex leads to is placed as a child, not as a root. |
| `Placement.ReachesStep` | util.js:160-172 | A step along an adjacency entry followed by a walk is a walk: the traversal goes on from each child it places. |
| `Placement.ClosedReaches` | util.js:158-172 | Once every claimed vertex is placed and every placed vertex has had the `to` of its entries claimed, everything a claimed vertex reaches is claimed. |
| `Placement.ReachedIsChild` | util.js:104-110 | With distinct ids, from the `k`-th turn on, a vertex that an earlier vertex reaches by a walk of `e.to` steps is placed as a child. By its turn the earlier vertex is placed, so is everything it reaches, and the only roots are earlier vertices. |
| `Placement.ReachedAtItsTurn` | util.js:104-105 | At the turn of such a vertex it is already seen and placed, and not as a root, so the loop skips it. |
| `Placement.ReachedAreChildren` | util.js:99-111 | The whole loop, started from nothing, places every vertex that an earlier vertex reaches as a child. |
| `Placement.UnreachedIsRoot` | util.js:104-109 | From the `k`-th turn on, a vertex that no earlier vertex reaches is still unseen at its turn, because everything seen was reached from an earlier vertex. So it is seeded as a root at (1, 1). |
| `Placement.SeenReachedMore` | util.js:106-109 | After a root's turn, every seen vertex is reached from that root or from an earlier vertex. |
| `Placement.UnreachedAreRoots` | util.js:99-111 | The whole loop, started from nothing, makes every vertex that no earlier vertex reaches a root at (1, 1). |
| `Placement.ReverseEdgeNotFollowed` | util.js:155-163 | With the single edge 1 -> 0, both vertices end up at (1, 1): edges are followed from `from` to `to` only. |
| `Placement.OneEdgeFits` | util.js:165-171 | In the two-vertex graph with edge 0 -> 1, a child vertex 1 sits at angle 2π from vertex 0. |
| `Placement.PlaceOneEdge` | util.js:99-174 | With the single edge 0 -> 1, vertex 0 sits at (1, 1) and vertex 1 half a unit away at angle `theta * 1 + 0 = 2π`. |
| `Viewport.Farthest` | util.js:126-133 | The running maximum of absolute values is nonnegative, bounds every element, and is attained unless it is zero. |
| `Viewport.Centroid` | util.js:115-123 | The count times the centroid is the sum of the positions on each axis. |
| `Viewport.Normalize` | util.js:128-130 | Every vertex moves by the same offset, and the positions then sum to zero on each axis. |
| `Viewport.Extent` | util.js:125-133 | `farthestX` and `farthestY` bound the centred positions and are attained unless zero. |
| `Viewport.Recenter` | util.js:140-149 | With a zero pan, each shifted vertex is drawn at its zoomed position plus the display centre. |
| `Viewport.SpreadExtent` | util.js:125-138 | `farthestX` (`farthestY`) is positive exactly when the x (y) coordinates are not all equal, so the zoom's divisions are defined exactly then. |
| `Viewport.ZoomAsWritten` | util.js:135-138 | The zoom is positive. At it, three times the extent covers the display on both axes, exactly on one axis. |
| `Viewport.InitPanAndZoom` | util.js:113-152 | The vertices keep identities and pairwise differences. Both extents are positive, and the zoom is `Viewport.ZoomAsWritten` of them. The result is the centred vertices shifted to the display centre. |
| `Viewport.InitPanAndZoomCentres` | util.js:140-149 | With the returned zoom and a zero pan, the centroid of the fitted vertices is drawn at the centre of the display. |
| `Viewport.InitPanAndZoomOverflows` | util.js:135-149 | For vertices (0, 0) and (1, 10) on a 300 x 300 display, the zoom is 200 and the second vertex is drawn at y = 1150, off the display. |
| `Viewport.ZoomContained` | util.js:135-138 | The corrected zoom is positive. At it, three times the extent fits the display on both axes, exactly on one axis. |
| `Viewport.FitViewport` | util.js:113-152 | The corrected fit keeps identities and pairwise differences. Both extents are positive, and the zoom is `Viewport.ZoomContained` of them. The result is the centred vertices shifted to the display centre. |
| `Viewport.FitViewportContains` | util.js:113-152 | With the corrected zoom and a zero pan, every vertex is drawn inside the display. |

## Left out

- `components/Vertex.js` is not part of this model. It is the rendering and gesture component that calls the transforms. A drag moves the vertex by `pixelToCoordDelta` of the pointer movement (components/Vertex.js:23-24); `Transform.DragFollowsPointer` models that use. Selection pins the vertex through `vert.fixed = selected.current` (components/Vertex.js:31). The vertex is drawn at `coordToPixel` of its position (components/Vertex.js:35). The React hooks and drawing around those calls are outside the engine.
- The sample graph (util.js:8-26), `objArrCpy` (util.js:6) and `DEFAULT_ZOOM` (util.js:4) are not part of this model: they are data and a component default, not layout logic.
- Floating point: numbers are reals, so rounding, `Infinity` and `NaN` are not modelled.
- `Math.cos`, `Math.sin` and `Math.PI` are a `Trig` parameter with no properties, so the model states where a vertex goes in terms of them and not as numbers.
- The tick driver, rendering, gestures and any concurrency around the mutating calls are outside the engine.
- In-place mutation is modelled by returning the new values. The caller-supplied maps of `initVertexEdgeMaps` are parameters.
- Vertex ids are natural numbers. The ascending order of integer-like property keys is modelled; JavaScript's treatment of keys of 2^32 - 1 and above is not.
- `Placement.InitVertexLocations`: requires unique vertex ids, because the source writes positions through `vertexMap[e.to]`, which aliases only one of several vertices with the same id.
- `Placement.Place`: requires every adjacency entry in the index to point at a listed vertex. The source fails on `vertexMap[e.to]` only for an entry the traversal actually reaches, so indexes with unreachable dangling entries are not modelled.
- `Placement.InitVertexLocations`: takes no vertex map. It assumes that `vertexMap` holds, under each id, the vertex listed in `verts` with that id, as `initVertexEdgeMaps` builds it from the same list with unique ids. A vertex map holding other records is not modelled.
- `Placement.Dfs`: `theta` divides by the number of adjacency entries. It is computed only when some entry exists, which is the only case in which the source uses it.
- `Viewport.InitPanAndZoom`: requires at least one vertex and coordinates that are not all equal on each axis; otherwise the source divides by zero and produces `NaN` or `Infinity`. It also requires one positive display side. With both sides zero the zoom is zero and the final loop divides by it. Both sides negative, which a display never has, gives a negative zoom and is not modelled.
- `Viewport.ZoomAsWritten`: requires positive extents, because the source divides by both, and one positive display side, as for `Viewport.InitPanAndZoom`.

## Findings

| source | as written | input that shows it | evidently intended | confidence | as-written member | corrected member |
|---|---|---|---|---|---|---|
| util.js:135-138 | The zoom is the larger of `width / (3 farthestX)` and `height / (3 farthestY)`, so only one axis is guaranteed to fit. | Vertices (0, 0) and (1, 10) on a 300 x 300 display: zoom 200, second vertex drawn at y = 1150. | The smaller of the two, so that every vertex is drawn inside the display with the margin the factor 3 reserves. | medium; not executed | `Viewport.InitPanAndZoomOverflows` | `Viewport.FitViewportContains` |

=== FILE: force.dfy ===
/** The force policy of the simulation: a piecewise function of the squared
    distance between two vertices and of whether they are adjacent
    (util.js:28-34), and the fixed time step of one tick (util.js:1-2). */
module Force {

  /** Ticks per second assumed by the simulation. */
  const FPS: real := 480.0

  /** Length of one tick in seconds. */
  const FPS_INV: real := 1.0 / FPS

  /** Scalar force between two vertices at squared distance `distSq`.
      Negative values repel, positive values attract. */
  function DistanceToForce(distSq: real, isEdge: bool): (f: real)
    // Very close pairs always repel, adjacent or not.
    ensures distSq < 0.2 * 0.2 ==> f == -2.0
    ensures f == -2.0 <==> distSq < 0.2 * 0.2
    // Attraction happens exactly between adjacent vertices at long range,
    // and then grows with the squared distance.
    ensures f > 0.0 <==> isEdge && distSq >= 0.6 * 0.6
    ensures f > 0.0 ==> f == 2.0 * distSq
    // A non-adjacent pair is either repelled or left alone.
    ensures !isEdge ==> f == -2.0 || f == 0.0
  {
    if distSq < 0.2 * 0.2 then -2.0
    else if distSq < 0.4 * 0.4 then 0.0
    else if distSq < 0.6 * 0.6 then 0.0
    else if !isEdge then 0.0
    else 2.0 * distSq
  }

  /** The dead zone: the force vanishes exactly from squared distance 0.04 on,
      up to 0.36 for adjacent pairs and without bound for the others. */
  lemma ZeroForceBand(distSq: real, isEdge: bool)
    ensures DistanceToForce(distSq, isEdge) == 0.0 <==>
              0.04 <= distSq && (!isEdge || distSq < 0.36)
  {
  }

  /** The force never decreases as the pair moves apart. */
  lemma ForceMonotone(d1: real, d2: real, isEdge: bool)
    requires d1 <= d2
    ensures DistanceToForce(d1, isEdge) <= DistanceToForce(d2, isEdge)
  {
  }

  /** Adjacency can only add attraction. */
  lemma EdgeOnlyAttracts(distSq: real)
    ensures DistanceToForce(distSq, false) <= DistanceToForce(distSq, true)
  {
  }
}

=== FILE: graph.dfy ===
/** The records the layout engine works on: vertices with virtual-space
    positions, edges between vertex ids, and the points returned by the
    coordinate transforms. Vertex ids are natural numbers, as in the sample
    graph; this also makes the ascending enumeration of integer-keyed
    adjacency entries meaningful. */
module Graph {

  /** A vertex. `x`/`y` are virtual coordinates; `fixed` pins the vertex
      while it is dragged (an absent flag in the source reads as false). */
  datatype Vertex = Vertex(id: nat, name: string, x: real, y: real, fixed: bool)

  /** An edge. `directed` is carried along but never consulted. */
  datatype Edge = Edge(from: nat, to: nat, directed: bool)

  datatype Option<T> = None | Some(value: T)

  /** A two-element coordinate pair (the source returns `[x, y]` arrays). */
  datatype Point = Point(x: real, y: real)

  /** Vertex id to vertex record. */
  type VertexMap = map<nat, Vertex>

  /** Vertex id to (neighbour id to connecting edge). */
  type EdgeMap = map<nat, map<nat, Edge>>

  /** `b` holds the same vertices as `a`, in the same order, differing at
      most in their positions. */
  predicate SameShape(a: seq<Vertex>, b: seq<Vertex>)
  {
    && |a| == |b|
    && forall k :: 0 <= k < |a| ==>
         a[k].id == b[k].id && a[k].name == b[k].name && a[k].fixed == b[k].fixed
  }

  /** The set of ids of a vertex sequence. */
  function Ids(vs: seq<Vertex>): set<nat>
  {
    set k | 0 <= k < |vs| :: vs[k].id
  }

  predicate UniqueIds(vs: seq<Vertex>)
  {
    forall i, j :: 0 <= i < j < |vs| ==> vs[i].id != vs[j].id
  }

  predicate NoneFixed(vs: seq<Vertex>)
  {
    forall k :: 0 <= k < |vs| ==> !vs[k].fixed
  }

  lemma SameShapeNoneFixed(a: seq<Vertex>, b: seq<Vertex>)
    requires SameShape(a, b) && NoneFixed(a)
    ensures NoneFixed(b)
  {
  }

  /** Moves one vertex by `(dx, dy)`. */
  function Shift(v: Vertex, dx: real, dy: real): Vertex
  {
    v.(x := v.x + dx, y := v.y + dy)
  }

  /** Moves every vertex by the same offset. */
  function Translate(vs: seq<Vertex>, dx: real, dy: real): (r: seq<Vertex>)
    ensures |r| == |vs|
  {
    seq(|vs|, k requires 0 <= k < |vs| => Shift(vs[k], dx, dy))
  }

  /** Sum of the x coordinates of the first `n` vertices, accumulated front
      to back. */
  function SumXTo(vs: seq<Vertex>, n: nat): real
    requires n <= |vs|
  {
    if n == 0 then 0.0 else SumXTo(vs, n - 1) + vs[n - 1].x
  }

  /** Sum of the y coordinates of the first `n` vertices. */
  function SumYTo(vs: seq<Vertex>, n: nat): real
    requires n <= |vs|
  {
    if n == 0 then 0.0 else SumYTo(vs, n - 1) + vs[n - 1].y
  }

  function SumX(vs: seq<Vertex>): real
  {
    SumXTo(vs, |vs|)
  }

  function SumY(vs: seq<Vertex>): real
  {
    SumYTo(vs, |vs|)
  }

  lemma {:induction false} SumToTranslate(vs: seq<Vertex>, n: nat, dx: real, dy: real)
    requires n <= |vs|
    ensures SumXTo(Translate(vs, dx, dy), n) == SumXTo(vs, n) + n as real * dx
    ensures SumYTo(Translate(vs, dx, dy), n) == SumYTo(vs, n) + n as real * dy
  {
    if n > 0 {
      SumToTranslate(vs, n - 1, dx, dy);
    }
  }

  /** Translating every vertex by `(dx, dy)` adds `n*dx` and `n*dy` to the sums. */
  lemma SumTranslate(vs: seq<Vertex>, dx: real, dy: real)
    ensures SumX(Translate(vs, dx, dy)) == SumX(vs) + |vs| as real * dx
    ensures SumY(Translate(vs, dx, dy)) == SumY(vs) + |vs| as real * dy
  {
    SumToTranslate(vs, |vs|, dx, dy);
  }

  lemma {:induction false} SumToUpdate(vs: seq<Vertex>, n: nat, k: nat, v: Vertex)
    requires k < |vs| && n <= |vs|
    ensures SumXTo(vs[k := v], n) == if n <= k then SumXTo(vs, n) else SumXTo(vs, n) - vs[k].x + v.x
    ensures SumYTo(vs[k := v], n) == if n <= k then SumYTo(vs, n) else SumYTo(vs, n) - vs[k].y + v.y
  {
    if n > 0 {
      SumToUpdate(vs, n - 1, k, v);
    }
  }

  /** Replacing one vertex changes the sums by exactly its own displacement. */
  lemma SumUpdate(vs: seq<Vertex>, k: nat, v: Vertex)
    requires k < |vs|
    ensures SumX(vs[k := v]) == SumX(vs) - vs[k].x + v.x
    ensures SumY(vs[k := v]) == SumY(vs) - vs[k].y + v.y
  {
    SumToUpdate(vs, |vs|, k, v);
  }
}

=== FILE: graph_index.dfy ===
/** The graph index (util.js:50-59): an id-to-vertex map and a symmetric
    adjacency map from a vertex id to its neighbours' ids to the connecting
    edge. Both are built by folding over the input lists in order, writing
    into maps the caller supplies, so a later write to the same key wins.
    Also here: the adjacency test the simulation uses (util.js:74) and the
    enumeration of a vertex's adjacency entries in ascending neighbour-id
    order, which is the order in which integer-keyed properties are listed
    (util.js:155-156). */
module GraphIndex {
  import opened Graph

  /** No vertex after position `i` has the id of `vs[i]`. */
  predicate LastWithId(vs: seq<Vertex>, i: nat)
    requires i < |vs|
  {
    forall j :: i < j < |vs| ==> vs[j].id != vs[i].id
  }

  lemma IdsSnoc(vs: seq<Vertex>)
    requires |vs| > 0
    ensures Ids(vs) == Ids(vs[..|vs| - 1]) + {vs[|vs| - 1].id}
  {
    var n := |vs| - 1;
    assert forall k :: 0 <= k < n ==> vs[..n][k] == vs[k];
  }

  lemma LastWithIdPrefix(vs: seq<Vertex>, i: nat)
    requires i < |vs| - 1 && LastWithId(vs, i)
    ensures vs[..|vs| - 1][i] == vs[i] && LastWithId(vs[..|vs| - 1], i)
    ensures vs[|vs| - 1].id != vs[i].id
  {
  }

  /** `vertexMap[v.id] = v` for every vertex, in order. */
  function AddVertices(vm: VertexMap, vs: seq<Vertex>): (r: VertexMap)
    ensures forall i :: 0 <= i < |vs| ==> vs[i].id in r
    // The last vertex listed with an id is the one stored under it.
    ensures forall i :: 0 <= i < |vs| && LastWithId(vs, i) ==> r[vs[i].id] == vs[i]
  {
    if |vs| == 0 then vm
    else
      var n := |vs| - 1;
      var prev := AddVertices(vm, vs[..n]);
      assert forall i :: 0 <= i < n ==> vs[..n][i] == vs[i];
      forall i | 0 <= i < n && LastWithId(vs, i)
        ensures prev[vs[i].id] == vs[i]
      {
        LastWithIdPrefix(vs, i);
      }
      prev[vs[n].id := vs[n]]
  }

  /** The vertex map gains exactly the listed ids; entries for other ids keep
      their previous value. */
  lemma {:induction false} AddVerticesKeys(vm: VertexMap, vs: seq<Vertex>)
    ensures AddVertices(vm, vs).Keys == vm.Keys + Ids(vs)
    ensures forall k :: k in vm && k !in Ids(vs) ==> AddVertices(vm, vs)[k] == vm[k]
  {
    if |vs| > 0 {
      var n := |vs| - 1;
      AddVerticesKeys(vm, vs[..n]);
      IdsSnoc(vs);
    }
  }

  /** `e` connects `a` and `b`, in either direction. */
  predicate Joins(e: Edge, a: nat, b: nat)
  {
    (e.from == a && e.to == b) || (e.from == b && e.to == a)
  }

  /** The adjacency entries of `k`, or none. */
  function Inner(em: EdgeMap, k: nat): map<nat, Edge>
  {
    if k in em then em[k] else map[]
  }

  /** The edge stored under `edgeMap[a][b]`, if any. */
  function Lookup(em: EdgeMap, a: nat, b: nat): Option<Edge>
  {
    if a in em && b in em[a] then Some(em[a][b]) else None
  }

  /** Every entry has its mirror image, holding the same edge. */
  ghost predicate Symmetric(em: EdgeMap)
  {
    forall a, b :: Lookup(em, a, b) == Lookup(em, b, a)
  }

  /** The ids that occur as an endpoint of some edge. */
  function Endpoints(eds: seq<Edge>): set<nat>
  {
    (set k | 0 <= k < |eds| :: eds[k].from) + (set k | 0 <= k < |eds| :: eds[k].to)
  }

  lemma EndpointsSnoc(eds: seq<Edge>)
    requires |eds| > 0
    ensures Endpoints(eds) == Endpoints(eds[..|eds| - 1]) + {eds[|eds| - 1].from, eds[|eds| - 1].to}
  {
    var n := |eds| - 1;
    assert forall k :: 0 <= k < n ==> eds[..n][k] == eds[k];
  }

  /** One turn of the edge loop: `edgeMap[from][to] = e`, then
      `edgeMap[to][from] = e`, creating an inner map where there is none. */
  function AddEdge(em: EdgeMap, e: Edge): (r: EdgeMap)
    ensures r.Keys == em.Keys + {e.from, e.to}
    // The edge is stored in both directions; every other entry is as before.
    ensures forall a, b :: Lookup(r, a, b) == if Joins(e, a, b) then Some(e) else Lookup(em, a, b)
  {
    var m1 := em[e.from := Inner(em, e.from)[e.to := e]];
    m1[e.to := Inner(m1, e.to)[e.from := e]]
  }

  /** No edge after position `i` connects the endpoints of `eds[i]`. */
  predicate LastOfPair(eds: seq<Edge>, i: nat)
    requires i < |eds|
  {
    forall j :: i < j < |eds| ==> !Joins(eds[j], eds[i].from, eds[i].to)
  }

  /** The edge loop of the index build, in order. */
  function AddEdges(em: EdgeMap, eds: seq<Edge>): (r: EdgeMap)
    // Every entry is an old one or holds an input edge joining its two keys.
    ensures forall a, b :: Lookup(r, a, b) == Lookup(em, a, b) ||
              (Lookup(r, a, b).Some? && Lookup(r, a, b).value in eds && Joins(Lookup(r, a, b).value, a, b))
    ensures Symmetric(em) ==> Symmetric(r)
  {
    if |eds| == 0 then em
    else
      var n := |eds| - 1;
      var prev := AddEdges(em, eds[..n]);
      var e := eds[n];
      var r := AddEdge(prev, e);
      forall a, b
        ensures Lookup(r, a, b) == Lookup(em, a, b) ||
                (Lookup(r, a, b).Some? && Lookup(r, a, b).value in eds && Joins(Lookup(r, a, b).value, a, b))
      {
        if !Joins(e, a, b) && Lookup(prev, a, b) != Lookup(em, a, b) {
          assert Lookup(prev, a, b).value in eds[..n];
        }
      }
      r
  }

  /** An entry is created for exactly the ids that occur in some edge, so an
      id without incident edges gets none. */
  lemma {:induction false} AddEdgesKeys(em: EdgeMap, eds: seq<Edge>)
    ensures AddEdges(em, eds).Keys == em.Keys + Endpoints(eds)
  {
    if |eds| > 0 {
      var n := |eds| - 1;
      AddEdgesKeys(em, eds[..n]);
      EndpointsSnoc(eds);
    }
  }

  /** Last write wins: both directions of a pair hold the last edge listed
      for it. */
  lemma {:induction false} LastWriteWins(em: EdgeMap, eds: seq<Edge>, i: nat)
    requires i < |eds| && LastOfPair(eds, i)
    ensures Lookup(AddEdges(em, eds), eds[i].from, eds[i].to) == Some(eds[i])
    ensures Lookup(AddEdges(em, eds), eds[i].to, eds[i].from) == Some(eds[i])
  {
    var n := |eds| - 1;
    if i < n {
      assert eds[..n][i] == eds[i];
      assert LastOfPair(eds[..n], i) by {
        forall j | i < j < n
          ensures !Joins(eds[..n][j], eds[i].from, eds[i].to)
        {
          assert eds[..n][j] == eds[j];
        }
      }
      LastWriteWins(em, eds[..n], i);
      assert !Joins(eds[n], eds[i].from, eds[i].to);
    }
  }

  /** Both directions of every listed edge are present and hold the same
      edge, namely the last one listed for that pair, whatever the maps
      held before. */
  lemma {:induction false} LastWriteWinsBothWays(em: EdgeMap, eds: seq<Edge>, i: nat)
    requires i < |eds|
    ensures var r := AddEdges(em, eds);
            exists j :: i <= j < |eds| && LastOfPair(eds, j) && Joins(eds[j], eds[i].from, eds[i].to)
              && Lookup(r, eds[i].from, eds[i].to) == Some(eds[j])
              && Lookup(r, eds[i].to, eds[i].from) == Some(eds[j])
    decreases |eds| - i
  {
    if LastOfPair(eds, i) {
      LastWriteWins(em, eds, i);
    } else {
      var j :| i < j < |eds| && Joins(eds[j], eds[i].from, eds[i].to);
      LastWriteWinsBothWays(em, eds, j);
    }
  }

  /** `initVertexEdgeMaps`: fills the caller's vertex map and edge map. */
  function InitVertexEdgeMaps(vs: seq<Vertex>, eds: seq<Edge>, vm: VertexMap, em: EdgeMap)
    : (r: (VertexMap, EdgeMap))
    ensures r.0.Keys == vm.Keys + Ids(vs)
    // With unique ids every vertex is found under its own id.
    ensures UniqueIds(vs) ==> forall i :: 0 <= i < |vs| ==> vs[i].id in r.0 && r.0[vs[i].id] == vs[i]
    // Both endpoints of every edge see each other through the same edge.
    ensures forall i :: 0 <= i < |eds| ==>
              && Lookup(r.1, eds[i].from, eds[i].to).Some?
              && Lookup(r.1, eds[i].from, eds[i].to) == Lookup(r.1, eds[i].to, eds[i].from)
    ensures r.1.Keys == em.Keys + Endpoints(eds)
  {
    var vm' := AddVertices(vm, vs);
    AddVerticesKeys(vm, vs);
    assert UniqueIds(vs) ==> forall i :: 0 <= i < |vs| ==> LastWithId(vs, i);
    var em' := AddEdges(em, eds);
    AddEdgesKeys(em, eds);
    forall i | 0 <= i < |eds|
      ensures Lookup(em', eds[i].from, eds[i].to).Some?
      ensures Lookup(em', eds[i].from, eds[i].to) == Lookup(em', eds[i].to, eds[i].from)
    {
      LastWriteWinsBothWays(em, eds, i);
    }
    (vm', em')
  }

  /** The adjacency test of the simulation: an entry in either direction. */
  function IsEdge(em: EdgeMap, a: nat, b: nat): (r: bool)
    ensures r <==> Lookup(em, a, b).Some? || Lookup(em, b, a).Some?
  {
    (a in em && b in em[a]) || (b in em && a in em[b])
  }

  /** On an index built from empty maps, the adjacency test holds exactly
      for the pairs some input edge connects. */
  lemma IsEdgeIffListed(eds: seq<Edge>, a: nat, b: nat)
    ensures IsEdge(AddEdges(map[], eds), a, b) <==>
              exists i :: 0 <= i < |eds| && Joins(eds[i], a, b)
  {
    var em := AddEdges(map[], eds);
    if IsEdge(em, a, b) {
      var e := if Lookup(em, a, b).Some? then Lookup(em, a, b).value else Lookup(em, b, a).value;
      var i :| 0 <= i < |eds| && eds[i] == e;
      assert Joins(eds[i], a, b);
    } else if i :| 0 <= i < |eds| && Joins(eds[i], a, b) {
      LastWriteWinsBothWays(map[], eds, i);
    }
  }

  /** `m` is no larger than any element of `s`. */
  predicate IsMin(m: nat, s: set<nat>)
  {
    m in s && forall y :: y in s ==> m <= y
  }

  lemma {:induction false} MinExists(s: set<nat>)
    requires s != {}
    ensures exists m :: IsMin(m, s)
    decreases |s|
  {
    var y :| y in s;
    if s == {y} {
      assert IsMin(y, s);
    } else {
      var rest := s - {y};
      MinExists(rest);
      var m :| IsMin(m, rest);
      var least := if y < m then y else m;
      forall z | z in s
        ensures least <= z
      {
        if z != y {
          assert z in rest;
        }
      }
      assert IsMin(least, s);
    }
  }

  /** The elements of a finite set of ids in ascending order. */
  function SortedKeys(s: set<nat>): (r: seq<nat>)
    ensures forall x :: x in r <==> x in s
    ensures forall i, j :: 0 <= i < j < |r| ==> r[i] < r[j]
    ensures |r| == |s|
    decreases |s|
  {
    if s == {} then []
    else
      MinExists(s);
      var m :| IsMin(m, s);
      var rest := SortedKeys(s - {m});
      MinFirst(m, s, rest);
      [m] + rest
  }

  /** The least element in front of the rest in ascending order lists the
      whole set in ascending order. */
  lemma MinFirst(m: nat, s: set<nat>, rest: seq<nat>)
    requires IsMin(m, s)
    requires forall x :: x in rest <==> x in s - {m}
    requires forall i, j :: 0 <= i < j < |rest| ==> rest[i] < rest[j]
    requires |rest| == |s - {m}|
    ensures forall x :: x in [m] + rest <==> x in s
    ensures forall i, j :: 0 <= i < j < |[m] + rest| ==> ([m] + rest)[i] < ([m] + rest)[j]
    ensures |[m] + rest| == |s|
  {
    var r := [m] + rest;
    forall i, j | 0 <= i < j < |r| ensures r[i] < r[j] {
      assert r[j] == rest[j - 1] && r[j] in s - {m};
      if i > 0 {
        assert r[i] == rest[i - 1];
      }
    }
  }

  /** `Object.values(edgeMap[id] || {})`: the edges incident to `id`, one per
      neighbour, in ascending neighbour-id order. */
  function Neighbours(em: EdgeMap, id: nat): (r: seq<Edge>)
    ensures |r| == |Inner(em, id).Keys|
    ensures forall i :: 0 <= i < |r| ==> r[i] in Inner(em, id).Values
    ensures forall e :: e in Inner(em, id).Values ==> e in r
    // The `i`-th edge is the one stored under the `i`-th smallest neighbour id.
    ensures var inner := Inner(em, id);
            forall i :: 0 <= i < |r| ==> r[i] == inner[SortedKeys(inner.Keys)[i]]
  {
    var inner := Inner(em, id);
    var ks := SortedKeys(inner.Keys);
    var r := ValuesAt(inner, ks);
    ValuesListed(inner, ks, r);
    r
  }

  /** The values stored under `ks`, in that order. */
  function ValuesAt(inner: map<nat, Edge>, ks: seq<nat>): (r: seq<Edge>)
    requires forall k :: k in ks ==> k in inner
    ensures |r| == |ks| && forall i :: 0 <= i < |r| ==> r[i] == inner[ks[i]]
  {
    seq(|ks|, i requires 0 <= i < |ks| => inner[ks[i]])
  }

  /** Listing the value under each key of `inner` lists all its values. */
  lemma ValuesListed(inner: map<nat, Edge>, ks: seq<nat>, r: seq<Edge>)
    requires forall k :: k in ks <==> k in inner
    requires |r| == |ks| && forall i :: 0 <= i < |r| ==> r[i] == inner[ks[i]]
    ensures forall i :: 0 <= i < |r| ==> r[i] in inner.Values
    ensures forall e :: e in inner.Values ==> e in r
  {
    forall e | e in inner.Values ensures e in r {
      var k :| k in inner && inner[k] == e;
      var i :| 0 <= i < |ks| && ks[i] == k;
      assert r[i] == e;
    }
  }
}

=== FILE: placement.dfy ===
/** Initial placement (util.js:99-111, util.js:154-174): every vertex not yet
    seen is seeded at (1, 1) and a depth-first traversal fans the unseen
    `to` ids of its adjacency entries out around it at distance 0.5.

    The traversal follows `e.to` of every adjacency entry of the current
    vertex. Because the index stores each edge under both endpoints, the
    entry seen from the `to` side points back at the current vertex, which
    is already seen; in effect edges are only followed from `from` to `to`.

    Positions are kept in a map from vertex id to point: with unique ids the
    vertex map built from the same vertex list hands back exactly the vertex
    with that id, so "the position of id" is what the source's writes
    through `vertexMap[e.to]` and through the loop variable both change.
    `cos`, `sin` and pi are parameters, left uninterpreted. */
module Placement {
  import opened Graph
  import opened GraphIndex

  /** `Math.PI`, `Math.cos` and `Math.sin`. */
  datatype Trig = Trig(pi: real, cos: real -> real, sin: real -> real)

  /** Why a position was written: as a root of the traversal, or as the
      child of `parent` kept `rank`-th (from 0) among its fresh edges,
      placed at angle `angle`. */
  datatype Origin = Root | Child(parent: nat, rank: nat, angle: real)

  /** The state threaded through the traversal: the shared `seen` set, the
      positions written so far with the origin of each, and the ids in the
      order their positions were written. */
  datatype PlaceState = PlaceState(seen: set<nat>, pos: map<nat, Point>, origin: map<nat, Origin>, log: seq<nat>)

  /** Where every root is put. */
  const Seed: Point := Point(1.0, 1.0)

  /** The point half a unit from `p` at angle `a`. */
  function Offset(p: Point, trig: Trig, a: real): Point
  {
    Point(p.x + trig.cos(a) * 0.5, p.y + trig.sin(a) * 0.5)
  }

  function Written(log: seq<nat>): set<nat>
  {
    set x | x in log
  }

  predicate Distinct(s: seq<nat>)
  {
    forall i, j :: 0 <= i < j < |s| ==> s[i] != s[j]
  }

  /** Every adjacency entry points at a known vertex. */
  ghost predicate Wf(ids: set<nat>, em: EdgeMap)
  {
    forall a, e :: a in em && e in em[a].Values ==> e.to in ids
  }

  /** Some adjacency entry has `id` as its `to`. */
  ghost predicate IsTarget(em: EdgeMap, id: nat)
  {
    exists a, e :: a in em && e in em[a].Values && e.to == id
  }

  /** An adjacency entry of `p` has `c` as its `to`: the traversal can step
      from `p` to `c`. */
  ghost predicate Leads(em: EdgeMap, p: nat, c: nat)
  {
    exists e :: e in Inner(em, p).Values && e.to == c
  }

  /** `ps` is a walk along adjacency entries: each id leads to the next. */
  ghost predicate Walk(em: EdgeMap, ps: seq<nat>)
  {
    |ps| > 0 && forall i :: 0 <= i < |ps| - 1 ==> Leads(em, ps[i], ps[i + 1])
  }

  /** A walk of zero or more steps goes from `p` to `c`: the traversal,
      started at `p`, can get to `c`. */
  ghost predicate Reaches(em: EdgeMap, p: nat, c: nat)
  {
    exists ps :: Walk(em, ps) && ps[0] == p && ps[|ps| - 1] == c
  }

  lemma ReachesSelf(em: EdgeMap, p: nat)
    ensures Reaches(em, p, p)
  {
    assert Walk(em, [p]);
  }

  /** One step followed by a walk is a walk. */
  lemma ReachesStep(em: EdgeMap, p: nat, q: nat, c: nat)
    requires Leads(em, p, q) && Reaches(em, q, c)
    ensures Reaches(em, p, c)
  {
    var ps :| Walk(em, ps) && ps[0] == q && ps[|ps| - 1] == c;
    var qs := [p] + ps;
    forall i | 0 <= i < |qs| - 1 ensures Leads(em, qs[i], qs[i + 1]) {
      if i > 0 {
        assert qs[i] == ps[i - 1] && qs[i + 1] == ps[i];
      }
    }
    assert Walk(em, qs) && qs[0] == p && qs[|qs| - 1] == c;
  }

  /** Every id claimed in `seen'` but not in `seen` is reached from `cur`. */
  ghost predicate ReachedFrom(em: EdgeMap, cur: nat, seen: set<nat>, seen': set<nat>)
  {
    forall c :: c in seen' && c !in seen ==> Reaches(em, cur, c)
  }

  /** Each id is written at most once, only ids already claimed in `seen`
      are written, and a position exists exactly for the written ids. */
  ghost predicate Valid(ids: set<nat>, st: PlaceState)
  {
    && Written(st.log) <= st.seen <= ids
    && st.pos.Keys == Written(st.log)
    && st.origin.Keys == st.pos.Keys
    && Distinct(st.log)
  }

  /** Ids claimed but not yet placed. */
  ghost function Pending(st: PlaceState): set<nat>
  {
    st.seen - Written(st.log)
  }

  /** `r` continues `st`: nothing is unclaimed, the write log only grows, and
      no position written before is written again. */
  ghost predicate Extends(st: PlaceState, r: PlaceState)
  {
    && st.seen <= r.seen
    && |st.log| <= |r.log| && r.log[..|st.log|] == st.log
    && Written(st.log) <= Written(r.log)
    && (forall id :: id in st.pos ==> id in r.pos && r.pos[id] == st.pos[id])
    && forall id :: id in st.origin ==> id in r.origin && r.origin[id] == st.origin[id]
  }

  lemma WrittenSnoc(log: seq<nat>, x: nat)
    ensures Written(log + [x]) == Written(log) + {x}
  {
  }

  lemma ExtendsTrans(a: PlaceState, b: PlaceState, c: PlaceState)
    requires Extends(a, b) && Extends(b, c)
    ensures Extends(a, c)
  {
    assert c.log[..|a.log|] == c.log[..|b.log|][..|a.log|];
  }

  lemma {:induction false} SubsetCard(a: set<nat>, b: set<nat>)
    requires a <= b
    ensures |a| <= |b|
    decreases |b|
  {
    if a != {} {
      var x :| x in a;
      SubsetCard(a - {x}, b - {x});
    }
  }

  /** Writing one more id shrinks the measure of the traversal. */
  lemma MeasureShrinks(ids: set<nat>, w: set<nat>, x: nat)
    requires x in ids && x !in w
    ensures |ids - (w + {x})| < |ids - w|
  {
    assert ids - (w + {x}) == (ids - w) - {x};
  }

  lemma MeasureMono(ids: set<nat>, w: set<nat>, w': set<nat>)
    requires w <= w'
    ensures |ids - w'| <= |ids - w|
  {
    SubsetCard(ids - w', ids - w);
  }

  /** The targets of the edges of `f` from position `i` on. */
  function TosFrom(f: seq<Edge>, i: nat): set<nat>
    requires i <= |f|
  {
    set k | i <= k < |f| :: f[k].to
  }

  predicate DistinctTos(f: seq<Edge>)
  {
    forall a, b :: 0 <= a < b < |f| ==> f[a].to != f[b].to
  }

  lemma TosSnoc(f: seq<Edge>, e: Edge)
    ensures TosFrom(f + [e], 0) == TosFrom(f, 0) + {e.to}
  {
    var g := f + [e];
    forall x | x in TosFrom(g, 0) ensures x in TosFrom(f, 0) + {e.to} {
      var k :| 0 <= k < |g| && g[k].to == x;
      if k < |f| {
        assert f[k].to == x;
      }
    }
    forall x | x in TosFrom(f, 0) ensures x in TosFrom(g, 0) {
      var k :| 0 <= k < |f| && f[k].to == x;
      assert g[k].to == x;
    }
    assert g[|f|].to == e.to;
  }

  lemma TosFromSplit(f: seq<Edge>, i: nat)
    requires i < |f|
    ensures TosFrom(f, i) == {f[i].to} + TosFrom(f, i + 1)
  {
    forall x | x in TosFrom(f, i) ensures x in {f[i].to} + TosFrom(f, i + 1) {
      var k :| i <= k < |f| && f[k].to == x;
      if k > i {
        assert x in TosFrom(f, i + 1);
      }
    }
  }

  lemma TosCons(e: Edge, f: seq<Edge>)
    ensures TosFrom([e] + f, 0) == {e.to} + TosFrom(f, 0)
  {
    var g := [e] + f;
    TosFromSplit(g, 0);
    forall x | x in TosFrom(g, 1) ensures x in TosFrom(f, 0) {
      var k :| 1 <= k < |g| && g[k].to == x;
      assert f[k - 1].to == x;
    }
    forall x | x in TosFrom(f, 0) ensures x in TosFrom(g, 1) {
      var k :| 0 <= k < |f| && f[k].to == x;
      assert g[k + 1].to == x;
    }
  }

  /** `a` is `b` with some elements left out, the rest kept in order. */
  predicate InOrder(a: seq<Edge>, b: seq<Edge>)
    decreases |b|
  {
    if |b| == 0 then |a| == 0
    else
      || (|a| > 0 && a[|a| - 1] == b[|b| - 1] && InOrder(a[..|a| - 1], b[..|b| - 1]))
      || InOrder(a, b[..|b| - 1])
  }

  /** The first loop of `dfsLocations`: keep the edges whose `to` is not
      yet seen, claiming each such `to` as it goes. */
  function Filter(edges: seq<Edge>, seen: set<nat>): (r: (seq<Edge>, set<nat>))
    ensures r.1 == seen + TosFrom(r.0, 0)
    ensures forall k :: 0 <= k < |r.0| ==> r.0[k].to !in seen && r.0[k] in edges
    ensures DistinctTos(r.0) && |r.0| <= |edges|
    // The kept edges keep their relative order.
    ensures InOrder(r.0, edges)
    // Afterwards every `to` is claimed, kept or not.
    ensures forall e :: e in edges ==> e.to in r.1
  {
    if |edges| == 0 then ([], seen)
    else
      var n := |edges| - 1;
      var prev := Filter(edges[..n], seen);
      var e := edges[n];
      assert forall x :: x in edges[..n] ==> x in edges;
      assert forall x :: x in edges ==> x in edges[..n] || x == e;
      if e.to in prev.1 then prev
      else
        TosSnoc(prev.0, e);
        var kept := prev.0 + [e];
        assert kept[..|kept| - 1] == prev.0;
        (kept, prev.1 + {e.to})
  }

  /** A reference reading of that loop, front to back: an edge is kept
      exactly when its `to` is neither seen before the loop nor the `to` of
      an edge kept before it. */
  function FirstFresh(edges: seq<Edge>, seen: set<nat>): seq<Edge>
  {
    if |edges| == 0 then []
    else if edges[0].to in seen then FirstFresh(edges[1..], seen)
    else [edges[0]] + FirstFresh(edges[1..], seen + {edges[0].to})
  }

  /** The reference reading, split at its last edge. */
  lemma {:induction false} FirstFreshLast(edges: seq<Edge>, seen: set<nat>)
    requires |edges| > 0
    ensures var p := FirstFresh(edges[..|edges| - 1], seen);
            var e := edges[|edges| - 1];
            FirstFresh(edges, seen) == if e.to in seen + TosFrom(p, 0) then p else p + [e]
  {
    var n := |edges| - 1;
    if n == 0 {
      assert edges[1..] == [] && edges[..0] == [];
    } else {
      var t := edges[1..];
      assert edges[..n][0] == edges[0] && edges[..n][1..] == t[..n - 1];
      assert t[n - 1] == edges[n];
      if edges[0].to in seen {
        FirstFreshLast(t, seen);
      } else {
        var seen' := seen + {edges[0].to};
        FirstFreshLast(t, seen');
        TosCons(edges[0], FirstFresh(t[..n - 1], seen'));
      }
    }
  }

  /** The loop as written agrees with the reference reading. */
  lemma {:induction false} FilterIsFirstFresh(edges: seq<Edge>, seen: set<nat>)
    ensures Filter(edges, seen).0 == FirstFresh(edges, seen)
  {
    if |edges| > 0 {
      FilterIsFirstFresh(edges[..|edges| - 1], seen);
      FilterSnoc(edges, seen);
      FirstFreshLast(edges, seen);
    }
  }

  /** One turn of the loop, on the result of the turns before. */
  lemma FilterSnoc(edges: seq<Edge>, seen: set<nat>)
    requires |edges| > 0
    ensures var p := Filter(edges[..|edges| - 1], seen).0;
            var e := edges[|edges| - 1];
            Filter(edges, seen).0 == if e.to in seen + TosFrom(p, 0) then p else p + [e]
  {
  }

  /** The first loop of `dfsLocations` on the adjacency entries of `cur`:
      the entries leading to a vertex not yet seen, in enumeration order,
      and the enlarged `seen` set. */
  function FreshEdges(em: EdgeMap, cur: nat, seen: set<nat>): (r: (seq<Edge>, set<nat>))
    ensures r.1 == seen + TosFrom(r.0, 0)
    ensures forall k :: 0 <= k < |r.0| ==> r.0[k].to !in seen && r.0[k] in Inner(em, cur).Values
    ensures DistinctTos(r.0) && |r.0| <= Degree(em, cur)
    ensures InOrder(r.0, Neighbours(em, cur))
    ensures forall e :: e in Inner(em, cur).Values ==> e.to in r.1
  {
    Filter(Neighbours(em, cur), seen)
  }

  /** The angle between consecutive children of `p`: a full turn divided
      by the number of its adjacency entries, seen or not. */
  function Step(em: EdgeMap, trig: Trig, p: nat): (r: real)
    // `Degree(em, p)` steps make a full turn.
    ensures Degree(em, p) > 0 ==> Degree(em, p) as real * r == 2.0 * trig.pi
    ensures Degree(em, p) == 0 ==> r == 0.0
  {
    var n := Degree(em, p);
    if n == 0 then 0.0
    else
      var d := n as real;
      assert d * ((1.0 / d) * (2.0 * trig.pi)) == (d * (1.0 / d)) * (2.0 * trig.pi);
      (1.0 / d) * (2.0 * trig.pi)
  }

  /** The number of adjacency entries of `p`: `edges.length`. */
  function Degree(em: EdgeMap, p: nat): nat
  {
    |Inner(em, p).Keys|
  }

  /** The angle of the child kept `rank`-th: `theta * (i + 1) + prevTheta`. */
  function Angle(theta: real, rank: nat, prevTheta: real): real
  {
    theta * (rank + 1) as real + prevTheta
  }

  /** Children kept one after the other are a step apart, and the child
      kept last among as many as `p` has adjacency entries completes a full
      turn from `prevTheta`. */
  lemma SiblingAngles(em: EdgeMap, trig: Trig, p: nat, rank: nat, prevTheta: real)
    ensures var theta := Step(em, trig, p);
            Angle(theta, rank + 1, prevTheta) - Angle(theta, rank, prevTheta) == theta
    ensures Degree(em, p) > 0 ==>
              Angle(Step(em, trig, p), Degree(em, p) - 1, prevTheta) == prevTheta + 2.0 * trig.pi
  {
    var theta := Step(em, trig, p);
    assert theta * (rank + 2) as real == theta * (rank + 1) as real + theta;
  }

  /** The `prevTheta` the traversal passes on to the children of a vertex
      with origin `o`: 0 below a root, and pointing back at the parent
      below a child. */
  function Heading(trig: Trig, o: Origin): real
  {
    match o
    case Root => 0.0
    case Child(_, _, a) => a - trig.pi
  }

  /** `id` sits where its origin says: a root at the seed; a child half a
      unit from its parent, another placed vertex with an adjacency entry
      leading to it, at the parent's step times its rank plus one, turned
      by the parent's heading. */
  ghost predicate Fits(em: EdgeMap, trig: Trig, pos: map<nat, Point>, origin: map<nat, Origin>, id: nat)
    requires id in pos && id in origin
  {
    match origin[id]
    case Root => pos[id] == Seed
    case Child(p, i, a) =>
      && p in pos && p in origin && p != id
      && pos[id] == Offset(pos[p], trig, a)
      && Leads(em, p, id) && i < Degree(em, p)
      && a == Angle(Step(em, trig, p), i, Heading(trig, origin[p]))
  }

  /** Every placed id fits its origin. */
  ghost predicate Coherent(em: EdgeMap, trig: Trig, pos: map<nat, Point>, origin: map<nat, Origin>)
  {
    && origin.Keys == pos.Keys
    && forall id :: id in origin ==> Fits(em, trig, pos, origin, id)
  }

  ghost predicate Consistent(em: EdgeMap, trig: Trig, st: PlaceState)
  {
    Coherent(em, trig, st.pos, st.origin)
  }

  /** Places `id` at `pt` for reason `o`. */
  function Write(st: PlaceState, id: nat, pt: Point, o: Origin): PlaceState
  {
    PlaceState(st.seen, st.pos[id := pt], st.origin[id := o], st.log + [id])
  }

  lemma WriteValid(ids: set<nat>, st: PlaceState, id: nat, pt: Point, o: Origin)
    requires Valid(ids, st) && id in Pending(st)
    ensures Valid(ids, Write(st, id, pt, o))
  {
    WrittenSnoc(st.log, id);
  }

  lemma WriteExtends(st: PlaceState, id: nat, pt: Point, o: Origin)
    requires id !in st.pos && id !in st.origin
    ensures Extends(st, Write(st, id, pt, o))
  {
    WrittenSnoc(st.log, id);
    assert Write(st, id, pt, o).log[..|st.log|] == st.log;
  }

  /** Writing a new position leaves every earlier one fitting its origin. */
  lemma WriteConsistent(em: EdgeMap, trig: Trig, st: PlaceState, id: nat, pt: Point, o: Origin)
    requires Consistent(em, trig, st) && id !in st.pos
    requires Fits(em, trig, st.pos[id := pt], st.origin[id := o], id)
    ensures Consistent(em, trig, Write(st, id, pt, o))
  {
    var w := Write(st, id, pt, o);
    forall x | x in w.origin ensures Fits(em, trig, w.pos, w.origin, x) {
      if x != id {
        FitsFrame(em, trig, st.pos, st.origin, id, pt, o, x);
      }
    }
  }

  /** A new entry does not disturb an old one's fit. */
  lemma FitsFrame(em: EdgeMap, trig: Trig, pos: map<nat, Point>, origin: map<nat, Origin>,
                  id: nat, pt: Point, o: Origin, x: nat)
    requires x in pos && x in origin && id !in pos && origin.Keys == pos.Keys
    requires Fits(em, trig, pos, origin, x)
    ensures Fits(em, trig, pos[id := pt], origin[id := o], x)
  {
    match origin[x]
    case Root =>
    case Child(p, i, a) =>
      assert p != id;
  }

  /** Placing a pending id: the state stays valid, and the measure of the
      traversal shrinks. */
  lemma WriteStep(ids: set<nat>, st: PlaceState, id: nat, pt: Point, o: Origin)
    requires Valid(ids, st) && id in Pending(st)
    ensures Valid(ids, Write(st, id, pt, o)) && Extends(st, Write(st, id, pt, o))
    ensures Pending(Write(st, id, pt, o)) == Pending(st) - {id}
    ensures id in Written(Write(st, id, pt, o).log)
    ensures |ids - Written(Write(st, id, pt, o).log)| < |ids - Written(st.log)|
  {
    WrittenSnoc(st.log, id);
    WriteValid(ids, st, id, pt, o);
    WriteExtends(st, id, pt, o);
    MeasureShrinks(ids, Written(st.log), id);
  }

  /** What `PlaceChildren` needs of the children it is handed. */
  ghost predicate ChildrenOk(ids: set<nat>, em: EdgeMap, trig: Trig, cur: nat, f: seq<Edge>, i: nat, st: PlaceState)
  {
    && Wf(ids, em) && Valid(ids, st) && Consistent(em, trig, st) && cur in Written(st.log) && i <= |f|
    && (forall k :: i <= k < |f| ==> f[k].to in Pending(st) && f[k] in Inner(em, cur).Values)
    && DistinctTos(f) && |f| <= Degree(em, cur)
  }

  /** Every origin recorded between `st` and `r` is that of a child. */
  ghost predicate OnlyChildren(st: PlaceState, r: PlaceState)
  {
    forall id :: id in r.origin && id !in st.origin ==> r.origin[id].Child?
  }

  /** Every adjacency entry of `id` leads to an id claimed in `seen`. */
  ghost predicate Claims(em: EdgeMap, id: nat, seen: set<nat>)
  {
    forall e :: e in Inner(em, id).Values ==> e.to in seen
  }

  /** For every id placed between `st` and `r`, the `to` of each of its
      adjacency entries is claimed. */
  ghost predicate ClosedFrom(em: EdgeMap, st: PlaceState, r: PlaceState)
  {
    forall id :: id in r.origin && id !in st.origin ==> Claims(em, id, r.seen)
  }

  /** For every placed id, the `to` of each of its adjacency entries is
      claimed. */
  ghost predicate Closed(em: EdgeMap, st: PlaceState)
  {
    forall id :: id in st.origin ==> Claims(em, id, st.seen)
  }

  lemma ClosedTrans(em: EdgeMap, a: PlaceState, b: PlaceState, c: PlaceState)
    requires Extends(b, c) && ClosedFrom(em, a, b) && ClosedFrom(em, b, c)
    ensures ClosedFrom(em, a, c)
  {
  }

  /** What `PlaceChildren` promises. */
  ghost predicate ChildrenDone(ids: set<nat>, em: EdgeMap, trig: Trig, f: seq<Edge>, i: nat, st: PlaceState, r: PlaceState)
    requires i <= |f|
  {
    && Valid(ids, r) && Consistent(em, trig, r) && Extends(st, r) && OnlyChildren(st, r) && ClosedFrom(em, st, r)
    && Pending(r) == Pending(st) - TosFrom(f, i)
  }

  /** The `to` of every kept edge from the `i`-th on was placed as the
      child of `cur` of that rank: at angle `theta * (rank + 1) + prevTheta`,
      half a unit from `base`. */
  ghost predicate Ranked(trig: Trig, cur: nat, f: seq<Edge>, i: nat, theta: real, prevTheta: real, base: Point,
                         r: PlaceState)
  {
    forall k :: i <= k < |f| ==>
      && f[k].to in r.origin && r.origin[f[k].to] == Child(cur, k, Angle(theta, k, prevTheta))
      && f[k].to in r.pos && r.pos[f[k].to] == Offset(base, trig, Angle(theta, k, prevTheta))
  }

  /** The child placed in one turn keeps its place through the later turns. */
  lemma RankedExit(trig: Trig, cur: nat, f: seq<Edge>, i: nat, theta: real, prevTheta: real,
                   st: PlaceState, st2: PlaceState, r: PlaceState)
    requires i < |f| && cur in st.pos && Extends(st, st2) && Extends(st2, r)
    requires var angle := Angle(theta, i, prevTheta);
             && f[i].to in st2.origin && st2.origin[f[i].to] == Child(cur, i, angle)
             && f[i].to in st2.pos && st2.pos[f[i].to] == Offset(st.pos[cur], trig, angle)
    requires Ranked(trig, cur, f, i + 1, theta, prevTheta, st2.pos[cur], r)
    ensures Ranked(trig, cur, f, i, theta, prevTheta, st.pos[cur], r)
  {
  }

  /** The filtered edges of `cur` are fit to be placed. */
  lemma DfsEntry(ids: set<nat>, em: EdgeMap, trig: Trig, cur: nat, st: PlaceState, f: seq<Edge>, seen': set<nat>)
    requires Wf(ids, em) && Valid(ids, st) && Consistent(em, trig, st) && cur in Written(st.log)
    requires seen' == st.seen + TosFrom(f, 0) && DistinctTos(f) && |f| <= Degree(em, cur)
    requires forall k :: 0 <= k < |f| ==> f[k].to !in st.seen && f[k] in Inner(em, cur).Values
    ensures ChildrenOk(ids, em, trig, cur, f, 0, st.(seen := seen'))
    ensures Pending(st.(seen := seen')) - TosFrom(f, 0) == Pending(st)
    ensures forall x :: x in seen' && x !in st.seen ==> Leads(em, cur, x)
  {
    forall x | x in seen' && x !in st.seen ensures Leads(em, cur, x) {
      var k :| 0 <= k < |f| && f[k].to == x;
      assert f[k] in Inner(em, cur).Values;
    }
    forall x | x in TosFrom(f, 0) ensures x in ids {
      var k :| 0 <= k < |f| && f[k].to == x;
      assert cur in em && f[k] in em[cur].Values;
    }
  }

  /** The child written next fits its origin. */
  lemma ChildFits(em: EdgeMap, trig: Trig, st: PlaceState, cur: nat, e: Edge, i: nat, a: real)
    requires cur in st.pos && cur in st.origin && e.to !in st.pos && e in Inner(em, cur).Values
    requires i < Degree(em, cur) && a == Angle(Step(em, trig, cur), i, Heading(trig, st.origin[cur]))
    ensures Fits(em, trig, st.pos[e.to := Offset(st.pos[cur], trig, a)], st.origin[e.to := Child(cur, i, a)], e.to)
  {
  }

  /** One child placed and its subtree explored; the rest is still fit. */
  lemma ChildrenNext(ids: set<nat>, em: EdgeMap, trig: Trig, cur: nat, f: seq<Edge>, i: nat,
                     theta: real, prevTheta: real, st: PlaceState, st2: PlaceState)
    requires ChildrenOk(ids, em, trig, cur, f, i, st) && i < |f|
    requires theta == Step(em, trig, cur) && prevTheta == Heading(trig, st.origin[cur])
    requires var angle := Angle(theta, i, prevTheta);
             var st1 := Write(st, f[i].to, Offset(st.pos[cur], trig, angle), Child(cur, i, angle));
             && Valid(ids, st2) && Consistent(em, trig, st2) && Extends(st1, st2) && OnlyChildren(st1, st2)
             && Pending(st2) == Pending(st1) && ClosedFrom(em, st1, st2)
    requires Claims(em, f[i].to, st2.seen)
    ensures ChildrenOk(ids, em, trig, cur, f, i + 1, st2)
    ensures cur in st2.origin && st2.origin[cur] == st.origin[cur]
    ensures |ids - Written(st2.log)| <= |ids - Written(st.log)|
    ensures Extends(st, st2) && OnlyChildren(st, st2) && Pending(st2) == Pending(st) - {f[i].to}
    ensures ClosedFrom(em, st, st2)
  {
    var angle := Angle(theta, i, prevTheta);
    var st1 := Write(st, f[i].to, Offset(st.pos[cur], trig, angle), Child(cur, i, angle));
    ChildEntry(ids, em, trig, cur, f, i, theta, prevTheta, st);
    MeasureMono(ids, Written(st1.log), Written(st2.log));
    ExtendsTrans(st, st1, st2);
  }

  lemma ChildrenExit(ids: set<nat>, em: EdgeMap, trig: Trig, f: seq<Edge>, i: nat,
                     st: PlaceState, st2: PlaceState, r: PlaceState)
    requires i < |f| && Extends(st, st2) && OnlyChildren(st, st2) && ClosedFrom(em, st, st2)
    requires Pending(st2) == Pending(st) - {f[i].to}
    requires ChildrenDone(ids, em, trig, f, i + 1, st2, r)
    ensures ChildrenDone(ids, em, trig, f, i, st, r)
  {
    TosFromSplit(f, i);
    ExtendsTrans(st, st2, r);
    ClosedTrans(em, st, st2, r);
  }

  lemma DfsExit(ids: set<nat>, em: EdgeMap, trig: Trig, cur: nat, st: PlaceState, seen': set<nat>, f: seq<Edge>,
                r: PlaceState)
    requires st.seen <= seen' && Pending(st.(seen := seen')) - TosFrom(f, 0) == Pending(st)
    requires ChildrenDone(ids, em, trig, f, 0, st.(seen := seen'), r)
    requires forall e :: e in Inner(em, cur).Values ==> e.to in seen'
    requires (forall x :: x in seen' && x !in st.seen ==> Leads(em, cur, x)) && ReachedFrom(em, cur, seen', r.seen)
    ensures Valid(ids, r) && Consistent(em, trig, r) && Extends(st, r) && OnlyChildren(st, r)
    ensures Pending(r) == Pending(st) && ClosedFrom(em, st, r)
    ensures forall e :: e in Inner(em, cur).Values ==> e.to in r.seen
    ensures ReachedFrom(em, cur, st.seen, r.seen)
  {
    forall c | c in r.seen && c !in st.seen ensures Reaches(em, cur, c) {
      if c in seen' {
        ReachesSelf(em, c);
        ReachesStep(em, cur, c, c);
      }
    }
  }

  /** What a child's subtree claims, its parent reaches. */
  lemma ReachedThrough(em: EdgeMap, cur: nat, e: Edge, seen: set<nat>, seen': set<nat>)
    requires e in Inner(em, cur).Values && ReachedFrom(em, e.to, seen, seen')
    ensures ReachedFrom(em, cur, seen, seen')
  {
    forall c | c in seen' && c !in seen ensures Reaches(em, cur, c) {
      ReachesStep(em, cur, e.to, c);
    }
  }

  /** Writing the `i`-th child: everything the traversal below it needs. */
  lemma ChildEntry(ids: set<nat>, em: EdgeMap, trig: Trig, cur: nat, f: seq<Edge>, i: nat,
                   theta: real, prevTheta: real, st: PlaceState)
    requires ChildrenOk(ids, em, trig, cur, f, i, st) && i < |f|
    requires theta == Step(em, trig, cur) && prevTheta == Heading(trig, st.origin[cur])
    ensures var angle := Angle(theta, i, prevTheta);
            var st1 := Write(st, f[i].to, Offset(st.pos[cur], trig, angle), Child(cur, i, angle));
            && Valid(ids, st1) && Consistent(em, trig, st1) && Extends(st, st1) && OnlyChildren(st, st1)
            && f[i].to in Written(st1.log) && Heading(trig, st1.origin[f[i].to]) == angle - trig.pi
            && Pending(st1) == Pending(st) - {f[i].to}
            && |ids - Written(st1.log)| < |ids - Written(st.log)|
  {
    var angle := Angle(theta, i, prevTheta);
    var pt := Offset(st.pos[cur], trig, angle);
    WriteStep(ids, st, f[i].to, pt, Child(cur, i, angle));
    ChildFits(em, trig, st, cur, f[i], i, angle);
    WriteConsistent(em, trig, st, f[i].to, pt, Child(cur, i, angle));
  }

  /** `dfsLocations(prevPoint, seen, prevTheta, ...)` with `prevPoint` the
      vertex `cur`. */
  function Dfs(ids: set<nat>, em: EdgeMap, trig: Trig, cur: nat, prevTheta: real, st: PlaceState)
    : (r: PlaceState)
    requires Wf(ids, em) && Valid(ids, st) && Consistent(em, trig, st) && cur in Written(st.log)
    requires prevTheta == Heading(trig, st.origin[cur])
    ensures Valid(ids, r) && Consistent(em, trig, r) && Extends(st, r)
    // Only the outer loop makes roots.
    ensures OnlyChildren(st, r)
    // Ids claimed by a caller and not yet placed stay so.
    ensures Pending(r) == Pending(st)
    // Every `to` among the adjacency entries of `cur` ends up claimed, and
    // so do those of every vertex placed below it.
    ensures forall e :: e in Inner(em, cur).Values ==> e.to in r.seen
    ensures ClosedFrom(em, st, r)
    // Every id it claims is reached from `cur`.
    ensures ReachedFrom(em, cur, st.seen, r.seen)
    // The fresh edges of `cur` lead to its children, ranked in enumeration
    // order and fanned out around where `cur` was on entry.
    ensures Ranked(trig, cur, FreshEdges(em, cur, st.seen).0, 0, Step(em, trig, cur), prevTheta, st.pos[cur], r)
    decreases |ids - Written(st.log)|, 2
  {
    var filtered := FreshEdges(em, cur, st.seen);
    // `theta` is only used when some edge is kept, hence when `cur` has
    // some adjacency entry.
    var theta := Step(em, trig, cur);
    DfsEntry(ids, em, trig, cur, st, filtered.0, filtered.1);
    var r := PlaceChildren(ids, em, trig, cur, filtered.0, 0, theta, prevTheta, st.(seen := filtered.1));
    DfsExit(ids, em, trig, cur, st, filtered.1, filtered.0, r);
    r
  }

  /** The second loop of `dfsLocations`, from the `i`-th kept edge on. */
  function PlaceChildren(ids: set<nat>, em: EdgeMap, trig: Trig, cur: nat, f: seq<Edge>, i: nat,
                         theta: real, prevTheta: real, st: PlaceState): (r: PlaceState)
    requires ChildrenOk(ids, em, trig, cur, f, i, st)
    requires theta == Step(em, trig, cur) && prevTheta == Heading(trig, st.origin[cur])
    ensures ChildrenDone(ids, em, trig, f, i, st, r)
    ensures Ranked(trig, cur, f, i, theta, prevTheta, st.pos[cur], r)
    ensures ReachedFrom(em, cur, st.seen, r.seen)
    decreases |ids - Written(st.log)|, 1, |f| - i
  {
    if i == |f| then st
    else
      var st2 := PlaceChild(ids, em, trig, cur, f, i, theta, prevTheta, st);
      var r := PlaceChildren(ids, em, trig, cur, f, i + 1, theta, prevTheta, st2);
      ChildrenExit(ids, em, trig, f, i, st, st2, r);
      RankedExit(trig, cur, f, i, theta, prevTheta, st, st2, r);
      r
  }

  /** One turn of that loop: place the `to` of the `i`-th kept edge at angle
      `theta * (i + 1) + prevTheta`, half a unit from the current position of
      `cur`, and traverse from it, handing it the angle pointing back. */
  function PlaceChild(ids: set<nat>, em: EdgeMap, trig: Trig, cur: nat, f: seq<Edge>, i: nat,
                      theta: real, prevTheta: real, st: PlaceState): (st2: PlaceState)
    requires ChildrenOk(ids, em, trig, cur, f, i, st) && i < |f|
    requires theta == Step(em, trig, cur) && prevTheta == Heading(trig, st.origin[cur])
    ensures ChildrenOk(ids, em, trig, cur, f, i + 1, st2)
    ensures cur in st2.origin && st2.origin[cur] == st.origin[cur]
    ensures |ids - Written(st2.log)| <= |ids - Written(st.log)|
    ensures Extends(st, st2) && OnlyChildren(st, st2) && Pending(st2) == Pending(st) - {f[i].to}
    ensures ClosedFrom(em, st, st2) && ReachedFrom(em, cur, st.seen, st2.seen)
    // The `to` of the `i`-th kept edge is the child of rank `i`.
    ensures var angle := Angle(theta, i, prevTheta);
            && f[i].to in st2.origin && st2.origin[f[i].to] == Child(cur, i, angle)
            && f[i].to in st2.pos && st2.pos[f[i].to] == Offset(st.pos[cur], trig, angle)
    decreases |ids - Written(st.log)|, 0
  {
    var child := f[i].to;
    var angle := Angle(theta, i, prevTheta);
    ChildEntry(ids, em, trig, cur, f, i, theta, prevTheta, st);
    var st1 := Write(st, child, Offset(st.pos[cur], trig, angle), Child(cur, i, angle));
    assert Wf(ids, em);
    assert Valid(ids, st1) && Consistent(em, trig, st1) && child in Written(st1.log);
    assert angle - trig.pi == Heading(trig, st1.origin[child]);
    var st2 := Dfs(ids, em, trig, child, angle - trig.pi, st1);
    ChildrenNext(ids, em, trig, cur, f, i, theta, prevTheta, st, st2);
    ReachedThrough(em, cur, f[i], st.seen, st2.seen);
    st2
  }

  /** What the loop of `initVertexLocations` keeps. */
  ghost predicate SeedOk(ids: set<nat>, em: EdgeMap, trig: Trig, verts: seq<Vertex>, st: PlaceState)
  {
    && Wf(ids, em) && Valid(ids, st) && Consistent(em, trig, st) && Pending(st) == {} && Closed(em, st)
    && forall j :: 0 <= j < |verts| ==> verts[j].id in ids
  }

  lemma SeedEntry(ids: set<nat>, em: EdgeMap, trig: Trig, verts: seq<Vertex>, st: PlaceState, id: nat)
    requires SeedOk(ids, em, trig, verts, st) && id in ids && id !in st.seen
    ensures Valid(ids, st.(seen := st.seen + {id})) && Pending(st.(seen := st.seen + {id})) == {id}
    ensures Extends(st, st.(seen := st.seen + {id}))
    ensures Consistent(em, trig, Write(st.(seen := st.seen + {id}), id, Seed, Root))
    ensures Write(st.(seen := st.seen + {id}), id, Seed, Root).origin.Keys == st.origin.Keys + {id}
  {
    WriteConsistent(em, trig, st.(seen := st.seen + {id}), id, Seed, Root);
  }

  lemma SeedExit(ids: set<nat>, em: EdgeMap, trig: Trig, verts: seq<Vertex>,
                 st: PlaceState, st0: PlaceState, st1: PlaceState, st2: PlaceState, id: nat)
    requires SeedOk(ids, em, trig, verts, st) && Extends(st, st0) && id in st0.seen
    requires id in st1.pos && st1.pos[id] == Seed && id in st1.origin && st1.origin[id] == Root
    requires st1.origin.Keys == st.origin.Keys + {id}
    requires Extends(st0, st1) && Extends(st1, st2) && OnlyChildren(st1, st2)
    requires Valid(ids, st2) && Consistent(em, trig, st2) && Pending(st2) == Pending(st1) && Pending(st1) == {}
    requires ClosedFrom(em, st1, st2) && Claims(em, id, st2.seen)
    ensures SeedOk(ids, em, trig, verts, st2) && Extends(st, st2)
    ensures id in st2.seen && id in st2.pos && st2.pos[id] == Seed && id in st2.origin && st2.origin[id] == Root
    ensures forall x :: x in st2.origin && x !in st.origin && x != id ==> st2.origin[x].Child?
  {
    ExtendsTrans(st, st0, st1);
    ExtendsTrans(st, st1, st2);
    ExtendsTrans(st0, st1, st2);
  }

  /** The root itself is reached from the root. */
  lemma SeedReached(em: EdgeMap, id: nat, seen: set<nat>, seen1: set<nat>, seen2: set<nat>)
    requires seen1 == seen + {id} && ReachedFrom(em, id, seen1, seen2)
    ensures ReachedFrom(em, id, seen, seen2)
  {
    ReachesSelf(em, id);
  }

  /** One turn of the loop of `initVertexLocations` on a vertex not seen
      yet: claim it, seed it at (1, 1) as a root and traverse from it with
      `prevTheta` 0. */
  function SeedRoot(ids: set<nat>, em: EdgeMap, trig: Trig, verts: seq<Vertex>, k: nat, st: PlaceState)
    : (r: PlaceState)
    requires SeedOk(ids, em, trig, verts, st) && k < |verts| && verts[k].id !in st.seen
    ensures SeedOk(ids, em, trig, verts, r) && Extends(st, r)
    ensures var id := verts[k].id;
            id in r.seen && id in r.pos && r.pos[id] == Seed && id in r.origin && r.origin[id] == Root
    // The new root has been explored: every `to` among its adjacency entries
    // is claimed, and every other vertex placed in this turn is a child.
    ensures forall e :: e in Inner(em, verts[k].id).Values ==> e.to in r.seen
    ensures forall x :: x in r.origin && x !in st.origin && x != verts[k].id ==> r.origin[x].Child?
    // Every id claimed in the turn is reached from the new root.
    ensures ReachedFrom(em, verts[k].id, st.seen, r.seen)
  {
    var id := verts[k].id;
    var st0 := st.(seen := st.seen + {id});
    SeedEntry(ids, em, trig, verts, st, id);
    var st1 := Write(st0, id, Seed, Root);
    WriteStep(ids, st0, id, Seed, Root);
    var st2 := Dfs(ids, em, trig, id, 0.0, st1);
    SeedExit(ids, em, trig, verts, st, st0, st1, st2, id);
    SeedReached(em, id, st.seen, st1.seen, st2.seen);
    st2
  }

  /** What the loop of `initVertexLocations` has done from the `k`-th
      vertex on, started in `st` and ended in `r`: every vertex from the
      `k`-th on is claimed, and the `k`-th, when unseen at its turn, is a
      root seeded at (1, 1). */
  ghost predicate SeedDone(ids: set<nat>, em: EdgeMap, trig: Trig, verts: seq<Vertex>, k: nat, st: PlaceState,
                           r: PlaceState)
  {
    && SeedOk(ids, em, trig, verts, r) && Extends(st, r)
    && (forall j :: k <= j < |verts| ==> verts[j].id in r.seen)
    && (k < |verts| && verts[k].id !in st.seen ==>
          && verts[k].id in r.pos && r.pos[verts[k].id] == Seed
          && verts[k].id in r.origin && r.origin[verts[k].id] == Root)
  }

  /** The loop of `initVertexLocations` from the `k`-th vertex on: a vertex
      not seen yet is seeded as a root and traversed from. */
  function SeedFrom(ids: set<nat>, em: EdgeMap, trig: Trig, verts: seq<Vertex>, k: nat, st: PlaceState)
    : (r: PlaceState)
    requires SeedOk(ids, em, trig, verts, st) && k <= |verts|
    ensures SeedDone(ids, em, trig, verts, k, st, r)
    decreases |verts| - k
  {
    if k == |verts| then st
    else
      var id := verts[k].id;
      if id in st.seen then
        var r := SeedFrom(ids, em, trig, verts, k + 1, st);
        SeedSkip(ids, em, trig, verts, k, st, r);
        r
      else
        var st2 := SeedRoot(ids, em, trig, verts, k, st);
        var r := SeedFrom(ids, em, trig, verts, k + 1, st2);
        SeedKeep(ids, em, trig, verts, k, st, st2, r);
        r
  }

  lemma SeedSkip(ids: set<nat>, em: EdgeMap, trig: Trig, verts: seq<Vertex>, k: nat, st: PlaceState, r: PlaceState)
    requires k < |verts| && verts[k].id in st.seen
    requires SeedDone(ids, em, trig, verts, k + 1, st, r)
    ensures SeedDone(ids, em, trig, verts, k, st, r)
  {
  }

  /** Facts about a seeded root survive the rest of the loop. */
  lemma SeedKeep(ids: set<nat>, em: EdgeMap, trig: Trig, verts: seq<Vertex>, k: nat,
                 st: PlaceState, st2: PlaceState, r: PlaceState)
    requires k < |verts| && Extends(st, st2)
    requires var id := verts[k].id;
             id in st2.seen && id in st2.pos && st2.pos[id] == Seed && id in st2.origin && st2.origin[id] == Root
    requires SeedDone(ids, em, trig, verts, k + 1, st2, r)
    ensures SeedDone(ids, em, trig, verts, k, st, r)
  {
    ExtendsTrans(st, st2, r);
  }

  lemma PlaceExit(verts: seq<Vertex>, em: EdgeMap, trig: Trig, r: PlaceState)
    requires SeedOk(Ids(verts), em, trig, verts, r)
    requires forall j :: 0 <= j < |verts| ==> verts[j].id in r.seen
    ensures r.seen == Ids(verts) && Written(r.log) == Ids(verts) && Distinct(r.log)
    ensures r.pos.Keys == Ids(verts) && Consistent(em, trig, r)
  {
    assert Pending(r) == {};
    forall id | id in Ids(verts) ensures id in r.seen {
      var j :| 0 <= j < |verts| && verts[j].id == id;
    }
    forall id | id in r.seen ensures id in Written(r.log) {
      assert id !in Pending(r);
    }
  }

  /** Every root recorded in `st` is the id of one of the first `k`
      vertices. */
  ghost predicate RootsBefore(verts: seq<Vertex>, k: nat, st: PlaceState)
  {
    forall id :: id in st.origin && st.origin[id].Root? ==> exists i :: 0 <= i < k && i < |verts| && verts[i].id == id
  }

  /** With every claimed id placed and every placed id having claimed the
      `to` of its entries, whatever a claimed id reaches is claimed too. */
  lemma {:induction false} ClosedReaches(ids: set<nat>, em: EdgeMap, st: PlaceState, ps: seq<nat>)
    requires Valid(ids, st) && Pending(st) == {} && Closed(em, st)
    requires Walk(em, ps) && ps[0] in st.seen
    ensures ps[|ps| - 1] in st.seen
    decreases |ps|
  {
    if |ps| > 1 {
      assert ps[0] !in Pending(st) && Leads(em, ps[0], ps[1]);
      assert Claims(em, ps[0], st.seen);
      var qs := ps[1..];
      forall i | 0 <= i < |qs| - 1 ensures Leads(em, qs[i], qs[i + 1]) {
        assert qs[i] == ps[i + 1] && qs[i + 1] == ps[i + 2];
      }
      ClosedReaches(ids, em, st, qs);
    }
  }

  /** With distinct ids, a vertex that an earlier vertex of the list reaches
      is placed as a child: by its turn the earlier vertex is placed, and so
      is everything it reaches, and the only roots so far are the earlier
      vertices. */
  lemma {:induction false} ReachedIsChild(ids: set<nat>, em: EdgeMap, trig: Trig, verts: seq<Vertex>, k: nat,
                                          st: PlaceState, j: nat, m: nat)
    requires SeedOk(ids, em, trig, verts, st) && UniqueIds(verts) && k <= m < |verts|
    requires RootsBefore(verts, k, st) && forall i :: 0 <= i < k ==> verts[i].id in st.seen
    requires j < m && Reaches(em, verts[j].id, verts[m].id)
    ensures var r := SeedFrom(ids, em, trig, verts, k, st);
            verts[m].id in r.origin && r.origin[verts[m].id].Child?
    decreases m - k, 1
  {
    if k == m {
      ReachedAtItsTurn(ids, em, trig, verts, st, j, m);
      SeedFromSkips(ids, em, trig, verts, k, st);
    } else {
      ReachedNext(ids, em, trig, verts, k, st, j, m);
    }
  }

  /** A turn before that of the `m`-th vertex keeps what `ReachedIsChild`
      needs. */
  lemma {:induction false} ReachedNext(ids: set<nat>, em: EdgeMap, trig: Trig, verts: seq<Vertex>, k: nat,
                                       st: PlaceState, j: nat, m: nat)
    requires SeedOk(ids, em, trig, verts, st) && UniqueIds(verts) && k < m < |verts|
    requires RootsBefore(verts, k, st) && forall i :: 0 <= i < k ==> verts[i].id in st.seen
    requires j < m && Reaches(em, verts[j].id, verts[m].id)
    ensures var r := SeedFrom(ids, em, trig, verts, k, st);
            verts[m].id in r.origin && r.origin[verts[m].id].Child?
    decreases m - k, 0
  {
    if verts[k].id in st.seen {
      SeedFromSkips(ids, em, trig, verts, k, st);
      ReachedIsChild(ids, em, trig, verts, k + 1, st, j, m);
    } else {
      var st2 := SeedFromSeeds(ids, em, trig, verts, k, st);
      ReachedIsChild(ids, em, trig, verts, k + 1, st2, j, m);
    }
  }

  /** A turn on a vertex already seen changes nothing. */
  lemma SeedFromSkips(ids: set<nat>, em: EdgeMap, trig: Trig, verts: seq<Vertex>, k: nat, st: PlaceState)
    requires SeedOk(ids, em, trig, verts, st) && k < |verts| && verts[k].id in st.seen
    ensures SeedFrom(ids, em, trig, verts, k, st) == SeedFrom(ids, em, trig, verts, k + 1, st)
  {
  }

  /** A turn on a vertex not seen yet seeds it, and adds no other root. */
  lemma SeedFromSeeds(ids: set<nat>, em: EdgeMap, trig: Trig, verts: seq<Vertex>, k: nat, st: PlaceState)
    returns (st2: PlaceState)
    requires SeedOk(ids, em, trig, verts, st) && k < |verts| && verts[k].id !in st.seen
    requires RootsBefore(verts, k, st) && forall i :: 0 <= i < k ==> verts[i].id in st.seen
    ensures SeedOk(ids, em, trig, verts, st2)
    ensures RootsBefore(verts, k + 1, st2) && forall i :: 0 <= i < k + 1 ==> verts[i].id in st2.seen
    ensures SeedFrom(ids, em, trig, verts, k, st) == SeedFrom(ids, em, trig, verts, k + 1, st2)
  {
    st2 := SeedRoot(ids, em, trig, verts, k, st);
    RootsAfterSeed(verts, k, st, st2);
  }

  /** At the turn of the `m`-th vertex, a vertex that an earlier one reaches
      is already placed, and not as a root. */
  lemma ReachedAtItsTurn(ids: set<nat>, em: EdgeMap, trig: Trig, verts: seq<Vertex>, st: PlaceState, j: nat, m: nat)
    requires SeedOk(ids, em, trig, verts, st) && UniqueIds(verts) && m < |verts|
    requires RootsBefore(verts, m, st) && forall i :: 0 <= i < m ==> verts[i].id in st.seen
    requires j < m && Reaches(em, verts[j].id, verts[m].id)
    ensures verts[m].id in st.seen && verts[m].id in st.origin && st.origin[verts[m].id].Child?
  {
    var id := verts[m].id;
    var ps :| Walk(em, ps) && ps[0] == verts[j].id && ps[|ps| - 1] == id;
    ClosedReaches(ids, em, st, ps);
    assert id in st.seen && id !in Pending(st);
    forall i | 0 <= i < m ensures verts[i].id != id {
    }
  }

  /** A turn that seeds the `k`-th vertex adds no root but it. */
  lemma RootsAfterSeed(verts: seq<Vertex>, k: nat, st: PlaceState, st2: PlaceState)
    requires k < |verts| && RootsBefore(verts, k, st) && Extends(st, st2)
    requires forall x :: x in st2.origin && x !in st.origin && x != verts[k].id ==> st2.origin[x].Child?
    ensures RootsBefore(verts, k + 1, st2)
  {
  }

  /** The loop of `initVertexLocations` starts with nothing claimed. */
  lemma SeedStart(verts: seq<Vertex>, em: EdgeMap, trig: Trig)
    requires Wf(Ids(verts), em)
    ensures var st0 := PlaceState({}, map[], map[], []);
            && SeedOk(Ids(verts), em, trig, verts, st0)
            && RootsBefore(verts, 0, st0) && SeenReached(em, verts, 0, st0)
  {
    var st0 := PlaceState({}, map[], map[], []);
    assert Written(st0.log) == {};
  }

  /** `ReachedIsChild` for the whole loop, which starts from nothing. */
  lemma ReachedAreChildren(verts: seq<Vertex>, em: EdgeMap, trig: Trig, st: PlaceState)
    requires Wf(Ids(verts), em)
    requires st == SeedFrom(Ids(verts), em, trig, verts, 0, PlaceState({}, map[], map[], []))
    ensures UniqueIds(verts) ==>
              forall j, m :: 0 <= j < m < |verts| && Reaches(em, verts[j].id, verts[m].id) ==>
                verts[m].id in st.origin && st.origin[verts[m].id].Child?
  {
    var st0 := PlaceState({}, map[], map[], []);
    SeedStart(verts, em, trig);
    if UniqueIds(verts) {
      forall j, m | 0 <= j < m < |verts| && Reaches(em, verts[j].id, verts[m].id)
        ensures verts[m].id in st.origin && st.origin[verts[m].id].Child?
      {
        ReachedIsChild(Ids(verts), em, trig, verts, 0, st0, j, m);
      }
    }
  }

  /** Every claimed id is reached from one of the first `k` vertices. */
  ghost predicate SeenReached(em: EdgeMap, verts: seq<Vertex>, k: nat, st: PlaceState)
  {
    forall c :: c in st.seen ==> exists i :: 0 <= i < k && i < |verts| && Reaches(em, verts[i].id, c)
  }

  /** A vertex that no earlier vertex of the list reaches is a root at
      (1, 1): at its turn it is still unseen, since everything seen so far
      is reached from an earlier vertex. */
  lemma {:induction false} UnreachedIsRoot(ids: set<nat>, em: EdgeMap, trig: Trig, verts: seq<Vertex>, k: nat,
                                           st: PlaceState, m: nat)
    requires SeedOk(ids, em, trig, verts, st) && k <= m < |verts| && SeenReached(em, verts, k, st)
    requires forall j :: 0 <= j < m ==> !Reaches(em, verts[j].id, verts[m].id)
    ensures var r := SeedFrom(ids, em, trig, verts, k, st);
            && verts[m].id in r.origin && r.origin[verts[m].id] == Root
            && verts[m].id in r.pos && r.pos[verts[m].id] == Seed
    decreases m - k, 1
  {
    if k == m {
      assert verts[m].id !in st.seen;
    } else {
      UnreachedNext(ids, em, trig, verts, k, st, m);
    }
  }

  /** A turn before that of the `m`-th vertex keeps what `UnreachedIsRoot`
      needs. */
  lemma {:induction false} UnreachedNext(ids: set<nat>, em: EdgeMap, trig: Trig, verts: seq<Vertex>, k: nat,
                                         st: PlaceState, m: nat)
    requires SeedOk(ids, em, trig, verts, st) && k < m < |verts| && SeenReached(em, verts, k, st)
    requires forall j :: 0 <= j < m ==> !Reaches(em, verts[j].id, verts[m].id)
    ensures var r := SeedFrom(ids, em, trig, verts, k, st);
            && verts[m].id in r.origin && r.origin[verts[m].id] == Root
            && verts[m].id in r.pos && r.pos[verts[m].id] == Seed
    decreases m - k, 0
  {
    if verts[k].id in st.seen {
      SeedFromSkips(ids, em, trig, verts, k, st);
      SeenReachedMore(em, verts, k, st.seen, st.seen);
      UnreachedIsRoot(ids, em, trig, verts, k + 1, st, m);
    } else {
      var st2 := SeedFromReaches(ids, em, trig, verts, k, st);
      UnreachedIsRoot(ids, em, trig, verts, k + 1, st2, m);
    }
  }

  /** What the `k`-th vertex reaches joins what the earlier ones reach. */
  lemma SeenReachedMore(em: EdgeMap, verts: seq<Vertex>, k: nat, seen: set<nat>, seen': set<nat>)
    requires k < |verts| && ReachedFrom(em, verts[k].id, seen, seen')
    requires forall c :: c in seen ==> exists i :: 0 <= i < k && i < |verts| && Reaches(em, verts[i].id, c)
    ensures forall c :: c in seen' ==> exists i :: 0 <= i < k + 1 && i < |verts| && Reaches(em, verts[i].id, c)
  {
  }

  /** A turn on a vertex not seen yet claims only what that vertex reaches. */
  lemma SeedFromReaches(ids: set<nat>, em: EdgeMap, trig: Trig, verts: seq<Vertex>, k: nat, st: PlaceState)
    returns (st2: PlaceState)
    requires SeedOk(ids, em, trig, verts, st) && k < |verts| && verts[k].id !in st.seen
    requires SeenReached(em, verts, k, st)
    ensures SeedOk(ids, em, trig, verts, st2) && SeenReached(em, verts, k + 1, st2)
    ensures SeedFrom(ids, em, trig, verts, k, st) == SeedFrom(ids, em, trig, verts, k + 1, st2)
  {
    st2 := SeedRoot(ids, em, trig, verts, k, st);
    SeenReachedMore(em, verts, k, st.seen, st2.seen);
  }

  /** `UnreachedIsRoot` for the whole loop, which starts from nothing. */
  lemma UnreachedAreRoots(verts: seq<Vertex>, em: EdgeMap, trig: Trig, st: PlaceState)
    requires Wf(Ids(verts), em)
    requires st == SeedFrom(Ids(verts), em, trig, verts, 0, PlaceState({}, map[], map[], []))
    ensures forall m :: 0 <= m < |verts| && (forall j :: 0 <= j < m ==> !Reaches(em, verts[j].id, verts[m].id)) ==>
              && verts[m].id in st.origin && st.origin[verts[m].id] == Root
              && verts[m].id in st.pos && st.pos[verts[m].id] == Seed
  {
    var st0 := PlaceState({}, map[], map[], []);
    SeedStart(verts, em, trig);
    forall m | 0 <= m < |verts| && (forall j :: 0 <= j < m ==> !Reaches(em, verts[j].id, verts[m].id))
      ensures && verts[m].id in st.origin && st.origin[verts[m].id] == Root
              && verts[m].id in st.pos && st.pos[verts[m].id] == Seed
    {
      UnreachedIsRoot(Ids(verts), em, trig, verts, 0, st0, m);
    }
  }

  /** The whole placement of `initVertexLocations`, as the final traversal
      state. */
  function Place(verts: seq<Vertex>, em: EdgeMap, trig: Trig): (st: PlaceState)
    requires Wf(Ids(verts), em)
    // Every vertex is claimed, and its position is written exactly once.
    ensures st.seen == Ids(verts) && Written(st.log) == Ids(verts) && Distinct(st.log)
    ensures st.pos.Keys == Ids(verts)
    // Each position is the seed or half a unit from a placed vertex whose
    // adjacency entry leads to it.
    ensures Consistent(em, trig, st)
    // The first vertex is always a root.
    ensures |verts| > 0 ==> st.pos[verts[0].id] == Seed && st.origin[verts[0].id] == Root
    // The roots are the vertices that no earlier vertex of the list reaches,
    // at (1, 1); with distinct ids, every other vertex is a child.
    ensures forall m :: 0 <= m < |verts| && (forall j :: 0 <= j < m ==> !Reaches(em, verts[j].id, verts[m].id)) ==>
              && verts[m].id in st.origin && st.origin[verts[m].id] == Root
              && verts[m].id in st.pos && st.pos[verts[m].id] == Seed
    ensures UniqueIds(verts) ==>
              forall j, m :: 0 <= j < m < |verts| && Reaches(em, verts[j].id, verts[m].id) ==>
                verts[m].id in st.origin && st.origin[verts[m].id].Child?
  {
    var st0 := PlaceState({}, map[], map[], []);
    assert Written(st0.log) == {};
    var r := SeedFrom(Ids(verts), em, trig, verts, 0, st0);
    PlaceExit(verts, em, trig, r);
    ReachedAreChildren(verts, em, trig, r);
    UnreachedAreRoots(verts, em, trig, r);
    r
  }

  /** A child's parent leads to it, so an id no adjacency entry leads to is
      a root. */
  lemma NonTargetIsRoot(em: EdgeMap, trig: Trig, st: PlaceState, id: nat)
    requires Consistent(em, trig, st) && id in st.pos && !IsTarget(em, id)
    ensures st.origin[id] == Root && st.pos[id] == Seed
  {
    assert Fits(em, trig, st.pos, st.origin, id);
  }

  /** The position of a vertex, as a point. */
  function At(v: Vertex): Point
  {
    Point(v.x, v.y)
  }

  /** `r[k]` sits half a unit from another vertex `r[j]` whose adjacency
      entries lead to it. */
  ghost predicate PlacedFrom(em: EdgeMap, trig: Trig, verts: seq<Vertex>, r: seq<Vertex>, k: nat)
    requires |verts| == |r| && k < |r|
  {
    exists j, a :: 0 <= j < |r| && j != k && Leads(em, verts[j].id, verts[k].id) && At(r[k]) == Offset(At(r[j]), trig, a)
  }

  /** `initVertexLocations(verts, edgeMap, vertexMap)`: the vertices with
      the positions the placement gives their ids. */
  function InitVertexLocations(verts: seq<Vertex>, em: EdgeMap, trig: Trig): (r: seq<Vertex>)
    requires UniqueIds(verts) && Wf(Ids(verts), em)
    ensures SameShape(verts, r)
    // Every vertex sits at the seed or half a unit from a vertex whose
    // adjacency entry leads to it.
    ensures forall k :: 0 <= k < |r| ==> At(r[k]) == Seed || PlacedFrom(em, trig, verts, r, k)
    // A vertex that no adjacency entry leads to sits at the seed, and so
    // does the first vertex.
    ensures forall k :: 0 <= k < |r| && !IsTarget(em, verts[k].id) ==> At(r[k]) == Seed
    ensures |r| > 0 ==> At(r[0]) == Seed
    // A vertex that no earlier vertex reaches sits at the seed; one that an
    // earlier vertex reaches sits half a unit from a vertex leading to it.
    ensures forall k :: 0 <= k < |r| && (forall j :: 0 <= j < k ==> !Reaches(em, verts[j].id, verts[k].id)) ==>
              At(r[k]) == Seed
    ensures forall j, k :: 0 <= j < k < |r| && Reaches(em, verts[j].id, verts[k].id) ==>
              PlacedFrom(em, trig, verts, r, k)
  {
    var st := Place(verts, em, trig);
    var r := MovedTo(verts, st.pos);
    LocationsExit(verts, em, trig, st, r);
    r
  }

  lemma LocationsExit(verts: seq<Vertex>, em: EdgeMap, trig: Trig, st: PlaceState, r: seq<Vertex>)
    requires UniqueIds(verts)
    requires st.pos.Keys == Ids(verts) && Consistent(em, trig, st)
    requires |verts| > 0 ==> st.pos[verts[0].id] == Seed
    requires SameShape(verts, r)
    requires forall k :: 0 <= k < |r| ==> At(r[k]) == st.pos[verts[k].id]
    requires forall m :: 0 <= m < |verts| && (forall j :: 0 <= j < m ==> !Reaches(em, verts[j].id, verts[m].id)) ==>
               && verts[m].id in st.origin && st.origin[verts[m].id] == Root
               && verts[m].id in st.pos && st.pos[verts[m].id] == Seed
    requires forall j, m :: 0 <= j < m < |verts| && Reaches(em, verts[j].id, verts[m].id) ==>
               verts[m].id in st.origin && st.origin[verts[m].id].Child?
    ensures forall k :: 0 <= k < |r| ==> At(r[k]) == Seed || PlacedFrom(em, trig, verts, r, k)
    ensures forall k :: 0 <= k < |r| && !IsTarget(em, verts[k].id) ==> At(r[k]) == Seed
    ensures |r| > 0 ==> At(r[0]) == Seed
    ensures forall k :: 0 <= k < |r| && (forall j :: 0 <= j < k ==> !Reaches(em, verts[j].id, verts[k].id)) ==>
              At(r[k]) == Seed
    ensures forall j, k :: 0 <= j < k < |r| && Reaches(em, verts[j].id, verts[k].id) ==>
              PlacedFrom(em, trig, verts, r, k)
  {
    forall k | 0 <= k < |r| ensures At(r[k]) == Seed || PlacedFrom(em, trig, verts, r, k) {
      var id := verts[k].id;
      assert id in Ids(verts);
      if st.origin[id].Child? {
        ChildPlaced(verts, em, trig, st, r, k);
      }
    }
    forall j, k | 0 <= j < k < |r| && Reaches(em, verts[j].id, verts[k].id)
      ensures PlacedFrom(em, trig, verts, r, k)
    {
      ChildPlaced(verts, em, trig, st, r, k);
    }
    forall k | 0 <= k < |r| && !IsTarget(em, verts[k].id) ensures At(r[k]) == Seed {
      assert verts[k].id in Ids(verts);
      NonTargetIsRoot(em, trig, st, verts[k].id);
    }
  }

  /** A vertex placed as a child sits half a unit from its parent. */
  lemma ChildPlaced(verts: seq<Vertex>, em: EdgeMap, trig: Trig, st: PlaceState, r: seq<Vertex>, k: nat)
    requires UniqueIds(verts) && st.pos.Keys == Ids(verts) && Consistent(em, trig, st)
    requires SameShape(verts, r) && k < |r|
    requires forall i :: 0 <= i < |r| ==> At(r[i]) == st.pos[verts[i].id]
    requires verts[k].id in st.origin && st.origin[verts[k].id].Child?
    ensures PlacedFrom(em, trig, verts, r, k)
  {
    var id := verts[k].id;
    assert Fits(em, trig, st.pos, st.origin, id);
    var p := st.origin[id].parent;
    var a := st.origin[id].angle;
    var j :| 0 <= j < |verts| && verts[j].id == p;
    assert At(r[k]) == Offset(At(r[j]), trig, a);
  }

  /** Each vertex moved to the point stored under its id. */
  function MovedTo(verts: seq<Vertex>, pos: map<nat, Point>): (r: seq<Vertex>)
    requires pos.Keys == Ids(verts)
    ensures SameShape(verts, r)
    ensures forall k :: 0 <= k < |r| ==> At(r[k]) == pos[verts[k].id]
  {
    assert forall k :: 0 <= k < |verts| ==> verts[k].id in Ids(verts);
    seq(|verts|, k requires 0 <= k < |verts| => verts[k].(x := pos[verts[k].id].x, y := pos[verts[k].id].y))
  }

  /** The index built from an edge list whose endpoints are all vertices
      meets the precondition of the placement, and its targets are `to`
      ends of listed edges. */
  lemma IndexTargets(verts: seq<Vertex>, eds: seq<Edge>)
    requires forall k :: 0 <= k < |eds| ==> eds[k].from in Ids(verts) && eds[k].to in Ids(verts)
    ensures Wf(Ids(verts), AddEdges(map[], eds))
    ensures forall id :: IsTarget(AddEdges(map[], eds), id) ==> exists k :: 0 <= k < |eds| && eds[k].to == id
  {
    var em := AddEdges(map[], eds);
    forall a, e | a in em && e in em[a].Values
      ensures e in eds
    {
      var b :| b in em[a] && em[a][b] == e;
      assert Lookup(em, a, b) == Some(e);
      assert Lookup(map[], a, b) == None;
    }
  }

  /** Edges are followed from `from` to `to` only: with the single edge
      1 -> 0, the traversal from vertex 0 finds its one adjacency entry
      leading back to itself, so vertex 1 is seeded as a root too and both
      vertices sit at (1, 1). */
  lemma ReverseEdgeNotFollowed(trig: Trig)
    ensures var verts := [Vertex(0, "Node 0", 0.0, 0.0, false), Vertex(1, "Node 1", 0.0, 0.0, false)];
            var eds := [Edge(1, 0, false)];
            && Wf(Ids(verts), AddEdges(map[], eds))
            && var r := InitVertexLocations(verts, AddEdges(map[], eds), trig);
               At(r[0]) == Seed && At(r[1]) == Seed
  {
    var verts := [Vertex(0, "Node 0", 0.0, 0.0, false), Vertex(1, "Node 1", 0.0, 0.0, false)];
    var eds := [Edge(1, 0, false)];
    assert verts[0].id in Ids(verts) && verts[1].id in Ids(verts);
    IndexTargets(verts, eds);
    assert !IsTarget(AddEdges(map[], eds), 1);
  }

  /** The index of the single edge 0 -> 1. */
  lemma OneEdgeIndex(e: Edge)
    requires e == Edge(0, 1, false)
    ensures AddEdges(map[], [e]) == map[0 := map[1 := e], 1 := map[0 := e]]
  {
    assert [e][..0] == [];
    assert AddEdges(map[], [e]) == AddEdge(map[], e);
    assert Inner(map[], 0) == map[];
    assert Inner(map[0 := map[1 := e]], 1) == map[];
  }

  /** One turn of the loop of `initVertexLocations` on a vertex not yet
      seen. */
  lemma SeedUnfold(ids: set<nat>, em: EdgeMap, trig: Trig, verts: seq<Vertex>, k: nat, st: PlaceState)
    requires SeedOk(ids, em, trig, verts, st) && k < |verts| && verts[k].id !in st.seen
    ensures var id := verts[k].id;
            var st1 := Write(st.(seen := st.seen + {id}), id, Seed, Root);
            && Valid(ids, st1) && Consistent(em, trig, st1) && id in Written(st1.log) && st1.origin[id] == Root
            && SeedFrom(ids, em, trig, verts, k, st) == SeedFrom(ids, em, trig, verts, k + 1, Dfs(ids, em, trig, id, 0.0, st1))
  {
    var id := verts[k].id;
    SeedEntry(ids, em, trig, verts, st, id);
    WriteStep(ids, st.(seen := st.seen + {id}), id, Seed, Root);
  }

  /** Two vertices and the edge 0 -> 1: vertex 0 is seeded at (1, 1); the
      traversal from it places vertex 1, the only `to` of its entries, so `theta` is a
      full turn and vertex 1 lands at angle `2 * pi` from vertex 0. */
  lemma PlaceOneEdge(trig: Trig)
    ensures var verts := [Vertex(0, "Node 0", 0.0, 0.0, false), Vertex(1, "Node 1", 0.0, 0.0, false)];
            var eds := [Edge(0, 1, false)];
            && Wf(Ids(verts), AddEdges(map[], eds))
            && var r := InitVertexLocations(verts, AddEdges(map[], eds), trig);
               At(r[0]) == Seed && At(r[1]) == Offset(Seed, trig, 2.0 * trig.pi)
  {
    var verts := [Vertex(0, "Node 0", 0.0, 0.0, false), Vertex(1, "Node 1", 0.0, 0.0, false)];
    var e := Edge(0, 1, false);
    var em := AddEdges(map[], [e]);
    OneEdgeIndex(e);
    assert Inner(em, 0) == map[1 := e];
    assert Ids(verts) == {0, 1} by {
      assert verts[0].id == 0 && verts[1].id == 1;
    }
    assert Wf({0, 1}, em);
    var st := Place(verts, em, trig);
    assert Leads(em, 0, 1) by {
      assert e in Inner(em, 0).Values;
    }
    FirstLeadsChild(verts, em, trig, 1);
    OneEdgeFits(em, trig, st.pos, st.origin, e);
  }

  /** A traversal started with nothing pending makes every vertex that
      `cur` leads to and that had no position yet a child. */
  lemma DfsNewChild(ids: set<nat>, em: EdgeMap, trig: Trig, cur: nat, prevTheta: real, st: PlaceState, c: nat)
    requires Wf(ids, em) && Valid(ids, st) && Consistent(em, trig, st) && cur in Written(st.log)
    requires prevTheta == Heading(trig, st.origin[cur]) && Pending(st) == {}
    requires Leads(em, cur, c) && c !in st.origin
    ensures c in Dfs(ids, em, trig, cur, prevTheta, st).origin
    ensures Dfs(ids, em, trig, cur, prevTheta, st).origin[c].Child?
  {
    var r := Dfs(ids, em, trig, cur, prevTheta, st);
    var e :| e in Inner(em, cur).Values && e.to == c;
    assert c in r.seen && c !in Pending(r);
  }

  /** Every vertex other than itself that the first vertex leads to is
      placed as a child: the first traversal reaches it before any later
      seeding can make it a root. */
  lemma FirstLeadsChild(verts: seq<Vertex>, em: EdgeMap, trig: Trig, c: nat)
    requires Wf(Ids(verts), em) && |verts| > 0
    requires Leads(em, verts[0].id, c) && c != verts[0].id
    ensures c in Place(verts, em, trig).origin && Place(verts, em, trig).origin[c].Child?
  {
    var ids, id := Ids(verts), verts[0].id;
    var st0 := PlaceState({}, map[], map[], []);
    assert Written(st0.log) == {};
    assert forall j :: 0 <= j < |verts| ==> verts[j].id in ids;
    SeedUnfold(ids, em, trig, verts, 0, st0);
    var st1 := Write(st0.(seen := st0.seen + {id}), id, Seed, Root);
    assert Pending(st1) == {};
    DfsNewChild(ids, em, trig, id, 0.0, st1, c);
    var st2 := Dfs(ids, em, trig, id, 0.0, st1);
    assert Place(verts, em, trig) == SeedFrom(ids, em, trig, verts, 0, st0);
    assert Place(verts, em, trig) == SeedFrom(ids, em, trig, verts, 1, st2);
  }

  /** In any coherent placement of the two-vertex example in which vertex 1
      is a child, its parent is vertex 0, its rank 0 and its angle a full
      turn. */
  lemma OneEdgeFits(em: EdgeMap, trig: Trig, pos: map<nat, Point>, origin: map<nat, Origin>, e: Edge)
    requires e == Edge(0, 1, false) && em == map[0 := map[1 := e], 1 := map[0 := e]]
    requires Coherent(em, trig, pos, origin) && pos.Keys == {0, 1}
    requires pos[0] == Seed && origin[0] == Root && origin[1].Child?
    ensures pos[1] == Offset(Seed, trig, 2.0 * trig.pi)
  {
    assert Fits(em, trig, pos, origin, 1);
    assert origin[1].parent == 0 by {
      assert origin[1].parent in pos.Keys && origin[1].parent != 1;
    }
    assert Inner(em, 0).Keys == {1};
    assert Degree(em, 0) == 1 && origin[1].rank == 0;
    assert Step(em, trig, 0) == 2.0 * trig.pi;
  }
}

=== FILE: simulation.dfy ===
/** One tick of the force simulation (util.js:62-97). Every pair (i, j) with
    i < j is visited in order, row by row; each visit reads the two vertices'
    current positions, which earlier visits of the same tick may already have
    moved, and writes the displaced vertices back. */
module Simulation {
  import opened Graph
  import opened Force
  import opened GraphIndex

  /** The force between `vs[i]` and `vs[j]` at their current positions. */
  function PairForce(em: EdgeMap, vs: seq<Vertex>, i: nat, j: nat): (f: real)
    requires i < |vs| && j < |vs|
    // Vertices at the same point repel.
    ensures vs[i].x == vs[j].x && vs[i].y == vs[j].y ==> f == -2.0
    // Only a pair joined by an edge in either direction attracts.
    ensures f > 0.0 ==> IsEdge(em, vs[i].id, vs[j].id)
    // The force is a function of the pair, not of which vertex comes first.
    ensures f == DistanceToForce(DistSq(vs, j, i), IsEdge(em, vs[j].id, vs[i].id))
  {
    var dx := vs[i].x - vs[j].x;
    var dy := vs[i].y - vs[j].y;
    assert (-dx) * (-dx) == dx * dx && (-dy) * (-dy) == dy * dy;
    assert dx == 0.0 && dy == 0.0 ==> DistSq(vs, i, j) == 0.0;
    DistanceToForce(DistSq(vs, i, j), IsEdge(em, vs[i].id, vs[j].id))
  }

  /** The squared distance between `vs[i]` and `vs[j]`. */
  function DistSq(vs: seq<Vertex>, i: nat, j: nat): real
    requires i < |vs| && j < |vs|
  {
    (vs[i].x - vs[j].x) * (vs[i].x - vs[j].x) + (vs[i].y - vs[j].y) * (vs[i].y - vs[j].y)
  }

  /** No vertex before position `k` is fixed. */
  predicate NoFixedBefore(vs: seq<Vertex>, k: nat)
    requires k <= |vs|
  {
    forall i :: 0 <= i < k ==> !vs[i].fixed
  }

  /** The rest of the inner loop once the force `f` is known: nothing for a
      zero force, otherwise displacement along the line through the pair. */
  function Displace(vs: seq<Vertex>, i: nat, j: nat, f: real): (r: seq<Vertex>)
    requires i < j < |vs|
    ensures SameShape(vs, r)
    ensures forall k :: 0 <= k < |vs| && k != i && k != j ==> r[k] == vs[k]
    // A fixed `from` never moves; a fixed `to` stays put when `from` is free.
    ensures vs[i].fixed ==> r[i] == vs[i]
    ensures !vs[i].fixed && vs[j].fixed ==> r[j] == vs[j]
    // Between two free vertices the displacements are opposite.
    ensures !vs[i].fixed && !vs[j].fixed ==>
              r[j].x - vs[j].x == -(r[i].x - vs[i].x) && r[j].y - vs[j].y == -(r[i].y - vs[i].y)
    // In every case the separation of the pair is scaled by `1 - f / 240`:
    // the pair moves apart by `2 * f / 480` of its separation in total.
    ensures r[i].x - r[j].x == (vs[i].x - vs[j].x) * (1.0 - f / 240.0)
    ensures r[i].y - r[j].y == (vs[i].y - vs[j].y) * (1.0 - f / 240.0)
  {
    var from := vs[i];
    var to := vs[j];
    var dx := from.x - to.x;
    var dy := from.y - to.y;
    if f == 0.0 then vs
    else Moves(vs, i, j, dx * f * FPS_INV, dy * f * FPS_INV)
  }

  /** The three displacement branches for the amounts `xd` and `yd`: a fixed
      `from` leaves the whole move to `to`, a fixed `to` leaves it to `from`,
      and two free vertices share it. */
  function Moves(vs: seq<Vertex>, i: nat, j: nat, xd: real, yd: real): seq<Vertex>
    requires i < j < |vs|
  {
    var from := vs[i];
    var to := vs[j];
    if from.fixed then vs[j := Shift(to, 2.0 * xd, 2.0 * yd)]
    else if to.fixed then vs[i := Shift(from, -(2.0 * xd), -(2.0 * yd))]
    else vs[i := Shift(from, -xd, -yd)][j := Shift(to, xd, yd)]
  }

  /** The body of the inner loop for the pair (`from`, `to`) = (`vs[i]`, `vs[j]`). */
  function PairStep(em: EdgeMap, vs: seq<Vertex>, i: nat, j: nat): (r: seq<Vertex>)
    requires i < j < |vs|
    ensures SameShape(vs, r)
    // Only the two vertices of the pair can move.
    ensures forall k :: 0 <= k < |vs| && k != i && k != j ==> r[k] == vs[k]
    // A pair at zero force is skipped.
    ensures PairForce(em, vs, i, j) == 0.0 ==> r == vs
    // A fixed `from` never moves; a fixed `to` stays put when `from` is free.
    ensures vs[i].fixed ==> r[i] == vs[i]
    ensures !vs[i].fixed && vs[j].fixed ==> r[j] == vs[j]
    // Between two free vertices the displacements are opposite.
    ensures !vs[i].fixed && !vs[j].fixed ==>
              r[j].x - vs[j].x == -(r[i].x - vs[i].x) && r[j].y - vs[j].y == -(r[i].y - vs[i].y)
    // The separation of the pair is scaled by `1 - f / 240` for the force
    // `f` at the pair's current positions.
    ensures var f := PairForce(em, vs, i, j);
            && r[i].x - r[j].x == (vs[i].x - vs[j].x) * (1.0 - f / 240.0)
            && r[i].y - r[j].y == (vs[i].y - vs[j].y) * (1.0 - f / 240.0)
  {
    Displace(vs, i, j, PairForce(em, vs, i, j))
  }

  /** Displacing by a force `f` scales the pair's squared distance by the
      square of the factor `1 - f / 240`. */
  lemma DisplaceScalesSeparation(vs: seq<Vertex>, i: nat, j: nat, f: real)
    requires i < j < |vs|
    ensures var c := 1.0 - f / 240.0;
            DistSq(Displace(vs, i, j, f), i, j) == c * c * DistSq(vs, i, j)
  {
    SeparationScales(vs, Displace(vs, i, j, f), i, j, 1.0 - f / 240.0);
  }

  lemma SeparationScales(vs: seq<Vertex>, r: seq<Vertex>, i: nat, j: nat, c: real)
    requires i < |vs| && j < |vs| && |r| == |vs|
    requires r[i].x - r[j].x == (vs[i].x - vs[j].x) * c && r[i].y - r[j].y == (vs[i].y - vs[j].y) * c
    ensures DistSq(r, i, j) == c * c * DistSq(vs, i, j)
  {
    var a := vs[i].x - vs[j].x;
    var b := vs[i].y - vs[j].y;
    assert DistSq(r, i, j) == (a * c) * (a * c) + (b * c) * (b * c);
    assert (a * c) * (a * c) + (b * c) * (b * c) == c * c * (a * a + b * b);
  }

  /** A repelled pair at distinct points ends the visit further apart. */
  lemma RepulsionSeparates(em: EdgeMap, vs: seq<Vertex>, i: nat, j: nat)
    requires i < j < |vs|
    requires PairForce(em, vs, i, j) < 0.0 && DistSq(vs, i, j) > 0.0
    ensures DistSq(PairStep(em, vs, i, j), i, j) > DistSq(vs, i, j)
  {
    DisplaceScalesSeparation(vs, i, j, PairForce(em, vs, i, j));
    var c := 1.0 - PairForce(em, vs, i, j) / 240.0;
    var d := DistSq(vs, i, j);
    assert c > 1.0;
    assert c * c > 1.0;
    assert c * c * d > d;
  }

  /** An attracted pair ends the visit closer together exactly when its
      squared distance is below 240; from there on the displacement
      overshoots and the pair ends at least as far apart, mirrored. */
  lemma AttractionCloses(em: EdgeMap, vs: seq<Vertex>, i: nat, j: nat)
    requires i < j < |vs|
    requires PairForce(em, vs, i, j) > 0.0
    ensures DistSq(PairStep(em, vs, i, j), i, j) < DistSq(vs, i, j) <==> DistSq(vs, i, j) < 240.0
  {
    DisplaceScalesSeparation(vs, i, j, PairForce(em, vs, i, j));
    var d := DistSq(vs, i, j);
    var c := 1.0 - PairForce(em, vs, i, j) / 240.0;
    assert PairForce(em, vs, i, j) == 2.0 * d;
    assert c == 1.0 - d / 120.0;
    assert d > 0.0;
    if d < 240.0 {
      assert -1.0 < c < 1.0;
      assert c * c < 1.0;
      assert c * c * d < d;
    } else {
      assert c <= -1.0;
      assert c * c >= 1.0;
      assert c * c * d >= d;
    }
  }

  /** The inner loop for row `i`, from column `j` on. */
  function Row(em: EdgeMap, vs: seq<Vertex>, i: nat, j: nat): (r: seq<Vertex>)
    requires i < j <= |vs|
    ensures SameShape(vs, r)
    // Only `vs[i]` and the columns from `j` on are visited.
    ensures forall k :: 0 <= k < j && k != i ==> r[k] == vs[k]
    decreases |vs| - j
  {
    if j == |vs| then vs
    else
      Row(em, PairStep(em, vs, i, j), i, j + 1)
  }

  /** The outer loop, from row `i` on. */
  function Rows(em: EdgeMap, vs: seq<Vertex>, i: nat): (r: seq<Vertex>)
    requires i <= |vs|
    ensures SameShape(vs, r)
    // Rows before `i` are done: their vertices are not visited again.
    ensures forall k :: 0 <= k < i ==> r[k] == vs[k]
    decreases |vs| - i
  {
    if i == |vs| then vs
    else
      Rows(em, Row(em, vs, i, i + 1), i + 1)
  }

  /** `updateLocation`: one tick over all pairs. */
  function UpdateLocation(em: EdgeMap, vs: seq<Vertex>): (r: seq<Vertex>)
    // Only positions change: length, order, ids, names and flags are kept.
    ensures SameShape(vs, r)
    // A fixed vertex with no fixed vertex before it does not move; in
    // particular the only fixed vertex of a tick does not move.
    ensures forall k :: 0 <= k < |vs| && vs[k].fixed && NoFixedBefore(vs, k) ==> r[k] == vs[k]
    // With two vertices the tick is the single visit of the pair.
    ensures |vs| == 2 ==> r == PairStep(em, vs, 0, 1)
  {
    RowsPin(em, vs, 0);
    TwoVertexRows(em, vs);
    Rows(em, vs, 0)
  }

  /** The loops of a tick on two vertices. */
  lemma TwoVertexRows(em: EdgeMap, vs: seq<Vertex>)
    ensures |vs| == 2 ==> Rows(em, vs, 0) == PairStep(em, vs, 0, 1)
  {
    if |vs| != 2 {
      return;
    }
    var p := PairStep(em, vs, 0, 1);
    assert Row(em, p, 0, 2) == p;
    assert Row(em, vs, 0, 1) == p;
    assert Row(em, p, 1, 2) == p;
    assert Rows(em, p, 2) == p;
    assert Rows(em, p, 1) == p;
  }

  /** A fixed vertex with no fixed vertex before it is left in place by every
      pair it belongs to: as `from` because it is fixed, as `to` because the
      `from` is free. */
  lemma PairStepPins(em: EdgeMap, vs: seq<Vertex>, i: nat, j: nat, k: nat)
    requires i < j < |vs| && k < |vs| && vs[k].fixed && NoFixedBefore(vs, k)
    ensures var r := PairStep(em, vs, i, j);
            r[k] == vs[k] && r[k].fixed && NoFixedBefore(r, k)
  {
  }

  lemma {:induction false} RowPins(em: EdgeMap, vs: seq<Vertex>, i: nat, j: nat, k: nat)
    requires i < j <= |vs| && k < |vs| && vs[k].fixed && NoFixedBefore(vs, k)
    ensures var r := Row(em, vs, i, j);
            r[k] == vs[k] && r[k].fixed && NoFixedBefore(r, k)
    decreases |vs| - j
  {
    if j < |vs| {
      PairStepPins(em, vs, i, j, k);
      RowPins(em, PairStep(em, vs, i, j), i, j + 1, k);
    }
  }

  lemma {:induction false} RowsPin(em: EdgeMap, vs: seq<Vertex>, i: nat)
    requires i <= |vs|
    ensures var r := Rows(em, vs, i);
            forall k :: 0 <= k < |vs| && vs[k].fixed && NoFixedBefore(vs, k) ==> r[k] == vs[k]
    decreases |vs| - i
  {
    if i < |vs| {
      var next := Row(em, vs, i, i + 1);
      RowsPin(em, next, i + 1);
      forall k | 0 <= k < |vs| && vs[k].fixed && NoFixedBefore(vs, k)
        ensures Rows(em, vs, i)[k] == vs[k]
      {
        RowPins(em, vs, i, i + 1, k);
      }
    }
  }

  /** With at most one fixed vertex, that vertex is unchanged by the tick. */
  lemma SoleFixedVertexPinned(em: EdgeMap, vs: seq<Vertex>, k: nat)
    requires k < |vs| && vs[k].fixed
    requires forall i :: 0 <= i < |vs| && i != k ==> !vs[i].fixed
    ensures UpdateLocation(em, vs)[k] == vs[k]
  {
    assert NoFixedBefore(vs, k);
  }

  /** When both vertices of a pair are fixed the later one still moves:
      two fixed vertices 0.1 apart repel, and the second is pushed away. */
  lemma BothFixedLaterStillMoves(em: EdgeMap)
    ensures var vs := [Vertex(0, "a", 0.0, 0.0, true), Vertex(1, "b", 0.1, 0.0, true)];
            UpdateLocation(em, vs)[1].x == 0.1 + 0.4 / 480.0
  {
    var vs := [Vertex(0, "a", 0.0, 0.0, true), Vertex(1, "b", 0.1, 0.0, true)];
    assert PairForce(em, vs, 0, 1) == -2.0;
    var r := PairStep(em, vs, 0, 1);
    assert r[1].x == 0.1 + 0.4 / 480.0;
    assert Row(em, vs, 0, 1) == Row(em, r, 0, 2) == r;
    assert Row(em, r, 1, 2) == r;
    assert Rows(em, r, 2) == r;
    assert Rows(em, r, 1) == r;
    assert Rows(em, vs, 0) == r;
  }

  /** Pairs are visited as (0,1), (0,2), (1,2), each on the positions left
      by the visits before it. */
  lemma ThreeVertexOrder(em: EdgeMap, vs: seq<Vertex>)
    requires |vs| == 3
    ensures UpdateLocation(em, vs) == PairStep(em, PairStep(em, PairStep(em, vs, 0, 1), 0, 2), 1, 2)
  {
    var a := PairStep(em, vs, 0, 1);
    var b := PairStep(em, a, 0, 2);
    var c := PairStep(em, b, 1, 2);
    assert Row(em, b, 0, 3) == b;
    assert Row(em, a, 0, 2) == b;
    assert Row(em, vs, 0, 1) == b;
    assert Row(em, c, 1, 3) == c;
    assert Row(em, b, 1, 2) == c;
    assert Rows(em, c, 3) == c;
    assert Row(em, c, 2, 3) == c;
    assert Rows(em, c, 2) == c;
    assert Rows(em, b, 1) == c;
  }

  /** Between free vertices every visit moves the pair by opposite amounts,
      so a tick keeps the sum of the coordinates, and with it the centroid. */
  lemma PairStepKeepsSums(em: EdgeMap, vs: seq<Vertex>, i: nat, j: nat)
    requires i < j < |vs| && !vs[i].fixed && !vs[j].fixed
    ensures SumX(PairStep(em, vs, i, j)) == SumX(vs)
    ensures SumY(PairStep(em, vs, i, j)) == SumY(vs)
  {
    var r := PairStep(em, vs, i, j);
    if r != vs {
      var mid := vs[i := r[i]];
      SumUpdate(vs, i, r[i]);
      assert r == mid[j := r[j]];
      SumUpdate(mid, j, r[j]);
    }
  }

  lemma {:induction false} RowKeepsSums(em: EdgeMap, vs: seq<Vertex>, i: nat, j: nat)
    requires i < j <= |vs| && NoneFixed(vs)
    ensures SumX(Row(em, vs, i, j)) == SumX(vs) && SumY(Row(em, vs, i, j)) == SumY(vs)
    decreases |vs| - j
  {
    if j < |vs| {
      var next := PairStep(em, vs, i, j);
      PairStepKeepsSums(em, vs, i, j);
      SameShapeNoneFixed(vs, next);
      RowKeepsSums(em, next, i, j + 1);
      assert Row(em, vs, i, j) == Row(em, next, i, j + 1);
    }
  }

  lemma {:induction false} RowsKeepSums(em: EdgeMap, vs: seq<Vertex>, i: nat)
    requires i <= |vs| && NoneFixed(vs)
    ensures SumX(Rows(em, vs, i)) == SumX(vs) && SumY(Rows(em, vs, i)) == SumY(vs)
    decreases |vs| - i
  {
    if i < |vs| {
      var next := Row(em, vs, i, i + 1);
      RowKeepsSums(em, vs, i, i + 1);
      SameShapeNoneFixed(vs, next);
      RowsKeepSums(em, next, i + 1);
      assert Rows(em, vs, i) == Rows(em, next, i + 1);
    }
  }

  /** A tick without fixed vertices keeps the centroid of the layout. */
  lemma TickKeepsCentroid(em: EdgeMap, vs: seq<Vertex>)
    requires NoneFixed(vs)
    ensures SumX(UpdateLocation(em, vs)) == SumX(vs)
    ensures SumY(UpdateLocation(em, vs)) == SumY(vs)
  {
    RowsKeepSums(em, vs, 0);
  }

  /** Forces depend only on differences of positions, so moving the whole
      layout and then ticking is the same as ticking and then moving it. */
  lemma PairStepTranslates(em: EdgeMap, vs: seq<Vertex>, i: nat, j: nat, dx: real, dy: real)
    requires i < j < |vs|
    ensures PairStep(em, Translate(vs, dx, dy), i, j) == Translate(PairStep(em, vs, i, j), dx, dy)
  {
    var t := Translate(vs, dx, dy);
    assert t[i].x - t[j].x == vs[i].x - vs[j].x;
    assert t[i].y - t[j].y == vs[i].y - vs[j].y;
    var f := PairForce(em, vs, i, j);
    assert DistSq(t, i, j) == DistSq(vs, i, j);
    assert t[i].id == vs[i].id && t[j].id == vs[j].id;
    assert PairForce(em, t, i, j) == f;
    DisplaceTranslates(vs, i, j, f, dx, dy);
  }

  lemma DisplaceTranslates(vs: seq<Vertex>, i: nat, j: nat, f: real, dx: real, dy: real)
    requires i < j < |vs|
    ensures Displace(Translate(vs, dx, dy), i, j, f) == Translate(Displace(vs, i, j, f), dx, dy)
  {
    var t := Translate(vs, dx, dy);
    // The displacement depends only on the difference of the pair.
    assert t[i].x - t[j].x == vs[i].x - vs[j].x;
    assert t[i].y - t[j].y == vs[i].y - vs[j].y;
    if f != 0.0 {
      var xd := (vs[i].x - vs[j].x) * f * FPS_INV;
      var yd := (vs[i].y - vs[j].y) * f * FPS_INV;
      DisplaceMoves(t, i, j, f);
      DisplaceMoves(vs, i, j, f);
      assert (t[i].x - t[j].x) * f * FPS_INV == xd && (t[i].y - t[j].y) * f * FPS_INV == yd;
      MovesTranslate(vs, i, j, xd, yd, dx, dy);
    }
  }

  lemma DisplaceMoves(vs: seq<Vertex>, i: nat, j: nat, f: real)
    requires i < j < |vs| && f != 0.0
    ensures Displace(vs, i, j, f) == Moves(vs, i, j, (vs[i].x - vs[j].x) * f * FPS_INV, (vs[i].y - vs[j].y) * f * FPS_INV)
  {
  }

  lemma MovesTranslate(vs: seq<Vertex>, i: nat, j: nat, xd: real, yd: real, dx: real, dy: real)
    requires i < j < |vs|
    ensures Moves(Translate(vs, dx, dy), i, j, xd, yd) == Translate(Moves(vs, i, j, xd, yd), dx, dy)
  {
    var lhs := Moves(Translate(vs, dx, dy), i, j, xd, yd);
    var rhs := Translate(Moves(vs, i, j, xd, yd), dx, dy);
    assert forall k :: 0 <= k < |vs| ==> lhs[k] == rhs[k];
  }

  /** One unfolding of the inner loop commutes with a translation, given
      that the rest of the row does. */
  lemma {:induction false} RowTranslatesStep(em: EdgeMap, vs: seq<Vertex>, i: nat, j: nat, dx: real, dy: real)
    requires i < j < |vs|
    ensures Row(em, Translate(vs, dx, dy), i, j) == Translate(Row(em, vs, i, j), dx, dy)
    decreases |vs| - j, 0
  {
    RowTranslates(em, PairStep(em, vs, i, j), i, j + 1, dx, dy);
    PairStepTranslates(em, vs, i, j, dx, dy);
  }

  lemma {:induction false} RowTranslates(em: EdgeMap, vs: seq<Vertex>, i: nat, j: nat, dx: real, dy: real)
    requires i < j <= |vs|
    ensures Row(em, Translate(vs, dx, dy), i, j) == Translate(Row(em, vs, i, j), dx, dy)
    decreases |vs| - j, 1
  {
    if j < |vs| {
      RowTranslatesStep(em, vs, i, j, dx, dy);
    }
  }

  /** One unfolding of the outer loop commutes with a translation once the
      remaining rows do. */
  lemma RowsTranslateStep(em: EdgeMap, vs: seq<Vertex>, i: nat, dx: real, dy: real)
    requires i < |vs|
    requires var next := Row(em, vs, i, i + 1);
             Rows(em, Translate(next, dx, dy), i + 1) == Translate(Rows(em, next, i + 1), dx, dy)
    ensures Rows(em, Translate(vs, dx, dy), i) == Translate(Rows(em, vs, i), dx, dy)
  {
    var t := Translate(vs, dx, dy);
    RowTranslates(em, vs, i, i + 1, dx, dy);
    assert Rows(em, t, i) == Rows(em, Row(em, t, i, i + 1), i + 1);
    assert Rows(em, vs, i) == Rows(em, Row(em, vs, i, i + 1), i + 1);
  }

  lemma {:induction false} RowsTranslate(em: EdgeMap, vs: seq<Vertex>, i: nat, dx: real, dy: real)
    requires i <= |vs|
    ensures Rows(em, Translate(vs, dx, dy), i) == Translate(Rows(em, vs, i), dx, dy)
    decreases |vs| - i
  {
    if i < |vs| {
      RowsTranslate(em, Row(em, vs, i, i + 1), i + 1, dx, dy);
      RowsTranslateStep(em, vs, i, dx, dy);
    }
  }

  lemma TickCommutesWithTranslation(em: EdgeMap, vs: seq<Vertex>, dx: real, dy: real)
    ensures UpdateLocation(em, Translate(vs, dx, dy)) == Translate(UpdateLocation(em, vs), dx, dy)
  {
    RowsTranslate(em, vs, 0, dx, dy);
  }
}

=== FILE: transform.dfy ===
/** Affine maps between virtual graph coordinates and pixel coordinates under
    a zoom factor and a pan offset, and their delta versions without the pan
    (util.js:36-48). The pixel-to-virtual direction divides by the zoom, so
    it is only defined for a nonzero zoom. */
module Transform {
  import opened Graph

  function CoordToPixel(x: real, y: real, zoom: real, pan: Point): (p: Point)
    // Undoing the pan and the zoom recovers the virtual point.
    ensures zoom != 0.0 ==> (p.x - pan.x) / zoom == x && (p.y - pan.y) / zoom == y
  {
    Point(zoom * x + pan.x, zoom * y + pan.y)
  }

  function PixelToCoord(px: real, py: real, zoom: real, pan: Point): (c: Point)
    requires zoom != 0.0
    // The result is the virtual point that the forward map sends to (px, py).
    ensures zoom * c.x + pan.x == px && zoom * c.y + pan.y == py
  {
    Point((px - pan.x) / zoom, (py - pan.y) / zoom)
  }

  function CoordToPixelDelta(d: real, zoom: real): (r: real)
    ensures zoom != 0.0 ==> r / zoom == d
  {
    zoom * d
  }

  function PixelToCoordDelta(d: real, zoom: real): (r: real)
    requires zoom != 0.0
    ensures zoom * r == d
  {
    d / zoom
  }

  /** Virtual to pixel and back is the identity. */
  lemma CoordRoundTrip(x: real, y: real, zoom: real, pan: Point)
    requires zoom != 0.0
    ensures PixelToCoord(CoordToPixel(x, y, zoom, pan).x, CoordToPixel(x, y, zoom, pan).y, zoom, pan)
            == Point(x, y)
  {
  }

  /** Pixel to virtual and back is the identity. */
  lemma PixelRoundTrip(px: real, py: real, zoom: real, pan: Point)
    requires zoom != 0.0
    ensures CoordToPixel(PixelToCoord(px, py, zoom, pan).x, PixelToCoord(px, py, zoom, pan).y, zoom, pan)
            == Point(px, py)
  {
  }

  /** Both round trips of the delta conversions are the identity. */
  lemma DeltaRoundTrip(d: real, zoom: real)
    requires zoom != 0.0
    ensures PixelToCoordDelta(CoordToPixelDelta(d, zoom), zoom) == d
    ensures CoordToPixelDelta(PixelToCoordDelta(d, zoom), zoom) == d
  {
  }

  /** The delta conversion agrees with the point conversion: moving a virtual
      point by `PixelToCoordDelta` of a pointer motion moves its pixel image
      by exactly that motion, whatever the pan. This is how a drag keeps the
      vertex under the pointer. */
  lemma DragFollowsPointer(x: real, y: real, mx: real, my: real, zoom: real, pan: Point)
    requires zoom != 0.0
    ensures var p := CoordToPixel(x, y, zoom, pan);
            CoordToPixel(x + PixelToCoordDelta(mx, zoom), y + PixelToCoordDelta(my, zoom), zoom, pan)
            == Point(p.x + mx, p.y + my)
  {
  }
}

=== FILE: viewport.dfy ===
/** Fitting a freshly placed graph to the display (util.js:113-152): shift
    the vertices so that their centroid is the origin, measure the largest
    distance from the centroid along each axis, pick a zoom from the display
    size, and shift the vertices once more so that, with a zero pan, the
    centroid lands in the middle of the display. The source mutates the
    vertex records and returns the zoom; here the moved vertices and the
    zoom are returned together. */
module Viewport {
  import opened Graph
  import opened Transform

  /** The moved vertices and the zoom chosen for them. */
  datatype Fit = Fit(verts: seq<Vertex>, zoom: real)

  /** `Math.abs`. */
  function Abs(x: real): (r: real)
    ensures r >= 0.0 && (r == x || r == -x)
  {
    if x < 0.0 then -x else x
  }

  /** `Math.max` of two numbers. */
  function Larger(a: real, b: real): (r: real)
    ensures r >= a && r >= b && (r == a || r == b)
  {
    if a < b then b else a
  }

  /** `Math.min` of two numbers. */
  function Smaller(a: real, b: real): (r: real)
    ensures r <= a && r <= b && (r == a || r == b)
  {
    if a < b then a else b
  }

  function Xs(vs: seq<Vertex>): seq<real>
  {
    seq(|vs|, k requires 0 <= k < |vs| => vs[k].x)
  }

  function Ys(vs: seq<Vertex>): seq<real>
  {
    seq(|vs|, k requires 0 <= k < |vs| => vs[k].y)
  }

  /** The running `Math.max(farthest, Math.abs(v))` of the normalising loop,
      started at 0: the largest magnitude among `xs`, or 0 for none. */
  function Farthest(xs: seq<real>): (r: real)
    ensures r >= 0.0
    ensures forall k :: 0 <= k < |xs| ==> Abs(xs[k]) <= r
    ensures r == 0.0 || exists k :: 0 <= k < |xs| && Abs(xs[k]) == r
  {
    if |xs| == 0 then 0.0
    else
      var rest := Farthest(xs[..|xs| - 1]);
      assert forall k :: 0 <= k < |xs| - 1 ==> xs[..|xs| - 1][k] == xs[k];
      Larger(rest, Abs(xs[|xs| - 1]))
  }

  /** Not all of `xs` are equal. */
  predicate Spread(xs: seq<real>)
  {
    exists i, j :: 0 <= i < |xs| && 0 <= j < |xs| && xs[i] != xs[j]
  }

  /** The centroid, computed as in the source: each sum times `1 / n`. */
  function Centroid(vs: seq<Vertex>): (c: Point)
    requires |vs| > 0
    ensures |vs| as real * c.x == SumX(vs) && |vs| as real * c.y == SumY(vs)
  {
    var len := 1.0 / |vs| as real;
    Point(SumX(vs) * len, SumY(vs) * len)
  }

  /** The first loop of the second pass: every vertex moved by minus the
      centroid. */
  function Normalize(vs: seq<Vertex>): (r: seq<Vertex>)
    requires |vs| > 0
    ensures SameShape(vs, r)
    // The result is centred on the origin ...
    ensures SumX(r) == 0.0 && SumY(r) == 0.0
    // ... and keeps the layout: every vertex moved by the same amount.
    ensures forall k :: 0 <= k < |vs| ==> r[k].x - vs[k].x == r[0].x - vs[0].x
    ensures forall k :: 0 <= k < |vs| ==> r[k].y - vs[k].y == r[0].y - vs[0].y
  {
    var c := Centroid(vs);
    var r := Translate(vs, -c.x, -c.y);
    SumTranslate(vs, -c.x, -c.y);
    r
  }

  /** `farthestX` and `farthestY`: the largest distance of a vertex from the
      centroid along each axis. */
  function Extent(vs: seq<Vertex>): (e: Point)
    requires |vs| > 0
    // Every centred vertex lies within the extent, and the extent is zero
    // or reached by some centred vertex, on each axis.
    ensures forall k :: 0 <= k < |vs| ==>
              Abs(Normalize(vs)[k].x) <= e.x && Abs(Normalize(vs)[k].y) <= e.y
    ensures e.x == 0.0 || exists k :: 0 <= k < |vs| && Abs(Normalize(vs)[k].x) == e.x
    ensures e.y == 0.0 || exists k :: 0 <= k < |vs| && Abs(Normalize(vs)[k].y) == e.y
  {
    var n := Normalize(vs);
    assert forall k :: 0 <= k < |vs| ==> Xs(n)[k] == n[k].x && Ys(n)[k] == n[k].y;
    Point(Farthest(Xs(n)), Farthest(Ys(n)))
  }

  /** The pixel position of a vertex under the zoom of a fit and a zero pan,
      as the view draws it after the fit. */
  function Pixel(v: Vertex, zoom: real): Point
  {
    CoordToPixel(v.x, v.y, zoom, Point(0.0, 0.0))
  }

  /** The final loop: with a zero pan, the display centre `(w/2, h/2)`
      corresponds to the virtual point `(w/(2 zoom), h/(2 zoom))`, and every
      vertex is moved by that point. */
  function Recenter(vs: seq<Vertex>, zoom: real, width: real, height: real): (r: seq<Vertex>)
    requires zoom != 0.0
    ensures SameShape(vs, r)
    // Each vertex is drawn at its zoomed position relative to the display
    // centre.
    ensures forall k :: 0 <= k < |vs| ==>
              Pixel(r[k], zoom) == Point(zoom * vs[k].x + width / 2.0, zoom * vs[k].y + height / 2.0)
  {
    var center := PixelToCoord(width / 2.0, height / 2.0, zoom, Point(0.0, 0.0));
    var r := Translate(vs, center.x, center.y);
    assert forall k :: 0 <= k < |vs| ==> r[k].x == vs[k].x + center.x && r[k].y == vs[k].y + center.y;
    r
  }

  /** The zoom the source picks from `farthestX`, `farthestY` and the display
      size: the larger of the two per-axis zooms at which the spread on that
      axis spans a third of the display. */
  function ZoomAsWritten(e: Point, width: real, height: real): (zoom: real)
    requires e.x > 0.0 && e.y > 0.0
    requires width > 0.0 || height > 0.0
    ensures Covers(zoom, e, width, height)
  {
    var zoom := Larger(width / (e.x * 3.0), height / (e.y * 3.0));
    LargerFills(zoom, e, width, height);
    zoom
  }

  /** `initPanAndZoom`. */
  function InitPanAndZoom(vs: seq<Vertex>, width: real, height: real): (r: Fit)
    requires |vs| > 0 && Spread(Xs(vs)) && Spread(Ys(vs))
    requires width > 0.0 || height > 0.0
    ensures SameShape(vs, r.verts)
    // The vertices are moved rigidly: relative positions are kept.
    ensures forall j, k :: 0 <= j < |vs| && 0 <= k < |vs| ==>
              r.verts[k].x - r.verts[j].x == vs[k].x - vs[j].x &&
              r.verts[k].y - r.verts[j].y == vs[k].y - vs[j].y
    // Both extents are positive and the zoom is the one they select.
    ensures var e := Extent(vs);
            e.x > 0.0 && e.y > 0.0 && r.zoom == ZoomAsWritten(e, width, height)
    // The vertices are the centred ones, recentred on the display.
    ensures r.verts == Recenter(Normalize(vs), r.zoom, width, height)
  {
    var n := Normalize(vs);
    var e := Extent(vs);
    SpreadExtent(vs);
    var zoom := ZoomAsWritten(e, width, height);
    var r := Fit(Recenter(n, zoom, width, height), zoom);
    RecenterRigid(vs, n, r.verts, zoom, width, height);
    r
  }

  /** The zoom of the corrected fit: the smaller of the two per-axis zooms,
      so that neither axis spreads over more than a third of the display. */
  function ZoomContained(e: Point, width: real, height: real): (zoom: real)
    requires e.x > 0.0 && e.y > 0.0
    requires width > 0.0 && height > 0.0
    ensures Contains(zoom, e, width, height)
  {
    var zoom := Smaller(width / (e.x * 3.0), height / (e.y * 3.0));
    SmallerFits(zoom, e, width, height);
    zoom
  }

  /** The fit with the zoom taken as the smaller of the two per-axis zooms. */
  function FitViewport(vs: seq<Vertex>, width: real, height: real): (r: Fit)
    requires |vs| > 0 && Spread(Xs(vs)) && Spread(Ys(vs))
    requires width > 0.0 && height > 0.0
    ensures SameShape(vs, r.verts)
    ensures forall j, k :: 0 <= j < |vs| && 0 <= k < |vs| ==>
              r.verts[k].x - r.verts[j].x == vs[k].x - vs[j].x &&
              r.verts[k].y - r.verts[j].y == vs[k].y - vs[j].y
    ensures var e := Extent(vs);
            e.x > 0.0 && e.y > 0.0 && r.zoom == ZoomContained(e, width, height)
    // The vertices are the centred ones, recentred on the display.
    ensures r.verts == Recenter(Normalize(vs), r.zoom, width, height)
  {
    var n := Normalize(vs);
    var e := Extent(vs);
    SpreadExtent(vs);
    var zoom := ZoomContained(e, width, height);
    var r := Fit(Recenter(n, zoom, width, height), zoom);
    RecenterRigid(vs, n, r.verts, zoom, width, height);
    r
  }

  /** Comparing a zoom with `a / b` is comparing `zoom * b` with `a`. */
  lemma ScaleBounds(zoom: real, a: real, b: real)
    requires b > 0.0
    ensures zoom >= a / b <==> zoom * b >= a
    ensures zoom <= a / b <==> zoom * b <= a
    ensures zoom == a / b <==> zoom * b == a
    ensures a > 0.0 ==> a / b > 0.0
    ensures a >= 0.0 ==> a / b >= 0.0
  {
  }

  /** At `zoom`, the spread `3 e` covers at least the display on both axes
      and exactly the display on one: the graph spans a third of the display
      or more in each direction. */
  predicate Covers(zoom: real, e: Point, width: real, height: real)
  {
    && zoom > 0.0
    && zoom * (e.x * 3.0) >= width && zoom * (e.y * 3.0) >= height
    && (zoom * (e.x * 3.0) == width || zoom * (e.y * 3.0) == height)
  }

  /** At `zoom`, the spread `3 e` fits inside the display on both axes and
      fills it on one. */
  predicate Contains(zoom: real, e: Point, width: real, height: real)
  {
    && zoom > 0.0
    && zoom * (e.x * 3.0) <= width && zoom * (e.y * 3.0) <= height
    && (zoom * (e.x * 3.0) == width || zoom * (e.y * 3.0) == height)
  }

  /** The zoom of the source covers the display. */
  lemma LargerFills(z: real, e: Point, width: real, height: real)
    requires e.x > 0.0 && e.y > 0.0
    requires width > 0.0 || height > 0.0
    requires z == Larger(width / (e.x * 3.0), height / (e.y * 3.0))
    ensures Covers(z, e, width, height)
  {
    ScaleBounds(z, width, e.x * 3.0);
    ScaleBounds(z, height, e.y * 3.0);
  }

  /** The corrected zoom fits the display. */
  lemma SmallerFits(z: real, e: Point, width: real, height: real)
    requires e.x > 0.0 && e.y > 0.0 && width > 0.0 && height > 0.0
    requires z == Smaller(width / (e.x * 3.0), height / (e.y * 3.0))
    ensures Contains(z, e, width, height)
  {
    ScaleBounds(z, width, e.x * 3.0);
    ScaleBounds(z, height, e.y * 3.0);
  }

  lemma RecenterRigid(vs: seq<Vertex>, n: seq<Vertex>, r: seq<Vertex>, zoom: real, width: real, height: real)
    requires |vs| > 0 && zoom != 0.0 && n == Normalize(vs) && r == Recenter(n, zoom, width, height)
    ensures forall j, k :: 0 <= j < |vs| && 0 <= k < |vs| ==>
              r[k].x - r[j].x == vs[k].x - vs[j].x && r[k].y - r[j].y == vs[k].y - vs[j].y
  {
  }

  /** The source's precondition on the shape of the graph: the vertices do
      not all share an x coordinate (or a y coordinate) exactly when the
      farthest distance from the centroid along that axis is positive. */
  lemma SpreadExtent(vs: seq<Vertex>)
    requires |vs| > 0
    ensures Spread(Xs(vs)) <==> Extent(vs).x > 0.0
    ensures Spread(Ys(vs)) <==> Extent(vs).y > 0.0
  {
    var n := Normalize(vs);
    SumXIsSum(n, |n|);
    SumYIsSum(n, |n|);
    assert Xs(n)[..|n|] == Xs(n) && Ys(n)[..|n|] == Ys(n);
    SpreadIffNonzero(Xs(vs), Xs(n), n[0].x - vs[0].x);
    SpreadIffNonzero(Ys(vs), Ys(n), n[0].y - vs[0].y);
  }

  /** Sum of a sequence of reals, front to back. */
  function Total(xs: seq<real>): real
  {
    if |xs| == 0 then 0.0 else Total(xs[..|xs| - 1]) + xs[|xs| - 1]
  }

  lemma {:induction false} SumXIsSum(vs: seq<Vertex>, n: nat)
    requires n <= |vs|
    ensures SumXTo(vs, n) == Total(Xs(vs)[..n])
  {
    if n > 0 {
      SumXIsSum(vs, n - 1);
      assert Xs(vs)[..n][..n - 1] == Xs(vs)[..n - 1];
    }
  }

  lemma {:induction false} SumYIsSum(vs: seq<Vertex>, n: nat)
    requires n <= |vs|
    ensures SumYTo(vs, n) == Total(Ys(vs)[..n])
  {
    if n > 0 {
      SumYIsSum(vs, n - 1);
      assert Ys(vs)[..n][..n - 1] == Ys(vs)[..n - 1];
    }
  }

  /** The sum of `n` copies of `c`. */
  lemma {:induction false} TotalConst(xs: seq<real>, c: real)
    requires forall k :: 0 <= k < |xs| ==> xs[k] == c
    ensures Total(xs) == |xs| as real * c
  {
    if |xs| > 0 {
      TotalConst(xs[..|xs| - 1], c);
    }
  }

  /** For `ys` a shift of `xs` that sums to zero: `xs` is spread exactly when
      some element of `ys` is nonzero, i.e. when their largest magnitude is
      positive. */
  lemma SpreadIffNonzero(xs: seq<real>, ys: seq<real>, d: real)
    requires |xs| == |ys| > 0 && Total(ys) == 0.0
    requires forall k :: 0 <= k < |xs| ==> ys[k] == xs[k] + d
    ensures Spread(xs) <==> Farthest(ys) > 0.0
  {
    if Spread(xs) {
      var i, j :| 0 <= i < |xs| && 0 <= j < |xs| && xs[i] != xs[j];
      assert ys[i] != ys[j];
      assert Abs(ys[i]) > 0.0 || Abs(ys[j]) > 0.0;
    }
    if !Spread(xs) {
      FlatExtent(xs, ys, d);
    }
  }

  /** A shift of a constant sequence that sums to zero is all zeros. */
  lemma FlatExtent(xs: seq<real>, ys: seq<real>, d: real)
    requires |xs| == |ys| > 0 && Total(ys) == 0.0 && !Spread(xs)
    requires forall k :: 0 <= k < |xs| ==> ys[k] == xs[k] + d
    ensures Farthest(ys) == 0.0
  {
    forall j | 0 <= j < |ys|
      ensures ys[j] == ys[0]
    {
      assert xs[j] == xs[0];
    }
    TotalConst(ys, ys[0]);
    assert ys[0] == 0.0 by {
      assert |ys| as real * ys[0] == 0.0;
    }
    assert forall j :: 0 <= j < |ys| ==> Abs(ys[j]) == 0.0;
  }

  /** A vertex at distance at most `e` from the centroid, recentred for a
      zoom at which `3 e` fits in `extent`, lands inside `[0, extent]`. */
  lemma OnScreen(zoom: real, n: real, e: real, extent: real)
    requires zoom > 0.0 && Abs(n) <= e && zoom * (e * 3.0) <= extent
    ensures 0.0 <= zoom * n + extent / 2.0 <= extent
  {
    assert -(zoom * e) <= zoom * n <= zoom * e by {
      if n >= 0.0 {
        assert zoom * n <= zoom * e;
      } else {
        assert zoom * (-n) <= zoom * e;
      }
    }
  }

  /** With the corrected zoom and a zero pan, every vertex is drawn inside
      the display. */
  lemma FitViewportContains(vs: seq<Vertex>, width: real, height: real)
    requires |vs| > 0 && Spread(Xs(vs)) && Spread(Ys(vs))
    requires width > 0.0 && height > 0.0
    ensures var r := FitViewport(vs, width, height);
            forall k :: 0 <= k < |vs| ==>
              && 0.0 <= Pixel(r.verts[k], r.zoom).x <= width
              && 0.0 <= Pixel(r.verts[k], r.zoom).y <= height
  {
    var r := FitViewport(vs, width, height);
    RecenterOnScreen(Normalize(vs), Extent(vs), r.zoom, width, height);
  }

  /** Centred vertices within `e` of the origin, recentred at a zoom at
      which `3 e` fits the display, are all drawn inside the display. */
  lemma RecenterOnScreen(n: seq<Vertex>, e: Point, zoom: real, width: real, height: real)
    requires Contains(zoom, e, width, height)
    requires forall k :: 0 <= k < |n| ==> Abs(n[k].x) <= e.x && Abs(n[k].y) <= e.y
    ensures var r := Recenter(n, zoom, width, height);
            forall k :: 0 <= k < |n| ==>
              && 0.0 <= Pixel(r[k], zoom).x <= width
              && 0.0 <= Pixel(r[k], zoom).y <= height
  {
    var r := Recenter(n, zoom, width, height);
    forall k | 0 <= k < |n|
      ensures 0.0 <= Pixel(r[k], zoom).x <= width && 0.0 <= Pixel(r[k], zoom).y <= height
    {
      OnScreen(zoom, n[k].x, e.x, width);
      OnScreen(zoom, n[k].y, e.y, height);
    }
  }

  /** With a zero pan, the centroid of the fitted vertices is drawn at the
      centre of the display. */
  lemma InitPanAndZoomCentres(vs: seq<Vertex>, width: real, height: real)
    requires |vs| > 0 && Spread(Xs(vs)) && Spread(Ys(vs))
    requires width > 0.0 || height > 0.0
    ensures var r := InitPanAndZoom(vs, width, height);
            CoordToPixel(Centroid(r.verts).x, Centroid(r.verts).y, r.zoom, Point(0.0, 0.0))
              == Point(width / 2.0, height / 2.0)
  {
    var r := InitPanAndZoom(vs, width, height);
    RecenterCentres(Normalize(vs), r.zoom, width, height);
  }

  /** Recentring a centred sequence puts its centroid at the display centre. */
  lemma RecenterCentres(vs: seq<Vertex>, zoom: real, width: real, height: real)
    requires |vs| > 0 && zoom != 0.0 && SumX(vs) == 0.0 && SumY(vs) == 0.0
    ensures var c := Centroid(Recenter(vs, zoom, width, height));
            CoordToPixel(c.x, c.y, zoom, Point(0.0, 0.0)) == Point(width / 2.0, height / 2.0)
  {
    var center := PixelToCoord(width / 2.0, height / 2.0, zoom, Point(0.0, 0.0));
    var r := Recenter(vs, zoom, width, height);
    SumTranslate(vs, center.x, center.y);
    var c := Centroid(r);
    var n := |vs| as real;
    assert n * c.x == n * center.x && n * c.y == n * center.y;
    assert c.x == center.x && c.y == center.y;
  }

  /** The zoom of the source lets the other axis run off the display: for
      the vertices (0, 0) and (1, 10) on a 300 by 300 display the x spread
      decides the zoom, 200, and the second vertex is drawn 1150 pixels
      down. */
  lemma InitPanAndZoomOverflows()
    ensures var vs := [Vertex(0, "Node 0", 0.0, 0.0, false), Vertex(1, "Node 1", 1.0, 10.0, false)];
            && Spread(Xs(vs)) && Spread(Ys(vs))
            && var r := InitPanAndZoom(vs, 300.0, 300.0);
               && r.zoom == 200.0
               && Pixel(r.verts[1], r.zoom).y == 1150.0
               && Pixel(r.verts[1], r.zoom).y > 300.0
  {
    var vs := [Vertex(0, "Node 0", 0.0, 0.0, false), Vertex(1, "Node 1", 1.0, 10.0, false)];
    TallGraphExtent(vs);
    var r := InitPanAndZoom(vs, 300.0, 300.0);
    assert r.zoom == Larger(300.0 / 1.5, 300.0 / 15.0);
  }

  /** The centred positions and the extent of the vertices (0, 0) and
      (1, 10). */
  lemma TallGraphExtent(vs: seq<Vertex>)
    requires vs == [Vertex(0, "Node 0", 0.0, 0.0, false), Vertex(1, "Node 1", 1.0, 10.0, false)]
    ensures Spread(Xs(vs)) && Spread(Ys(vs))
    ensures Normalize(vs)[1].x == 0.5 && Normalize(vs)[1].y == 5.0
    ensures Extent(vs) == Point(0.5, 5.0)
  {
    assert Xs(vs)[0] != Xs(vs)[1] && Ys(vs)[0] != Ys(vs)[1];
    TallGraphCentroid(vs);
    var n := Normalize(vs);
    assert n[0].x == -0.5 && n[1].x == 0.5 && n[0].y == -5.0 && n[1].y == 5.0;
    assert Farthest(Xs(n)[..1]) == 0.5 && Farthest(Ys(n)[..1]) == 5.0;
  }

  lemma TallGraphCentroid(vs: seq<Vertex>)
    requires vs == [Vertex(0, "Node 0", 0.0, 0.0, false), Vertex(1, "Node 1", 1.0, 10.0, false)]
    ensures Centroid(vs) == Point(0.5, 5.0)
  {
    assert SumXTo(vs, 1) == 0.0 && SumYTo(vs, 1) == 0.0;
    assert SumX(vs) == 1.0 && SumY(vs) == 10.0;
  }
}
